=== FILE: README.md ===
# barcode-wheel layout core, in Dafny

A model of the geometry behind barcode-wheel's wheels. A circle is cut into
equal slices, and each slice is filled with rectangular regions laid out
outwards along its bisector: the barcode, the UPC digits, the name and the
picture. The model covers:

- `upc_value`: a number padded to eleven digits.
- `text_bounding_box`: a shaped glyph run folded into one ink box. Both
  revisions are modelled, `barcode_wheel.py` and `harfbuzz_metrics.py`.
- The aspect-preserving fitters `scale_factor`, `box_in_box`,
  `scaled_text_bounding_box` and `font_size_in_box`.
- The slice vertices and their cyclic pairs.
- The placeholder layout. The running-sum `placeholder_use` and
  `placeholder_last` of `barcode_wheel.py` are modelled, and so is the
  prefix-sum `placeholder_group` of the earlier revision.
- The keyword overrides and overflow checks of `wheel_template` and of the
  earlier `outline_wheel`.

The trigonometry is kept abstract, so every contract is exact real arithmetic:

- A slice's half-angle is given by its sine and cosine, with
  `sin² + cos² = 1`, `sin > 0` and `cos ≥ 0`.
- The terminal box's `cos(asin(h/2r))·r` is a parameter `ax ≥ 0` with
  `ax² + (h/2)² = r²`.
- A vertex direction `(cos a, sin a)` comes from a function parameter `polar`.

Each Python exception becomes an `Errors.Error` value inside a `Result`.

Files: `errors.dfy` (Result and Error), `upc.dfy`, `glyphs.dfy` (text
measurement), `fitting.dfy` (box fitting), `slices.dfy` (vertices and slice
pairs), `layout.dfy` (box geometry and both layout revisions), `template.dfy`
(overrides, overflow checks, `wheel_template`, `outline_wheel`).

The model follows the code at these points:

- A non-terminal box rotates about its own centre `(x + w/2, cy)`, which is
  not the centre of its inner edge.
- Slice `k`'s group is rotated by `(360/n)·(k − 0.5)`. That puts it on the
  bisector between the vertices at `(k−1)·360/n` and `k·360/n`. Slice 0
  therefore sits in the slice that ends at angle 0.
- `gen_slice_points` pairs vertex `i` with vertex `i+1 mod n`, as its code
  does. Its docstring says `i−1`.
- The overflow check `total − 1 > 1` counts the picture's width in the total,
  so with the default picture width of 1 it rejects exactly when everything
  else exceeds 1.

## Model

| member | source | states |
|---|---|---|
| `Upc.UpcValue` | barcode_wheel.py:50-73 | Succeeds exactly for 0 ≤ n ≤ 99999999999 and then gives eleven digits. A negative n gives NegativeValue and a larger n gives TooManyDigits. |
| `Upc.UpcValueDenotes` | barcode_wheel.py:71-73 | The eleven-digit string returned reads back, in decimal, as the integer given. |
| `Upc.UpcValueOfDigits` | barcode_wheel.py:50-73 | Every eleven-digit string is `upc_value` of its own decimal value, so decoding then encoding returns the string. |
| `Upc.DecimalLength` | barcode_wheel.py:68-73 | A decimal rendering fits in k ≥ 1 digits exactly when the number is below 10^k. This is why eleven nines is the bound that keeps the padded result at eleven characters. |
| `Upc.Decimal` | barcode_wheel.py:73 | `{n:d}` yields digits with no leading zero whose decimal value is n. |
| `Glyphs.TextBoundingBox` | barcode_wheel.py:281-324 | Fails with EmptyInput exactly on an empty run. Otherwise x_offset is minus the first glyph's x bearing. |
| `Glyphs.MaxTop` | barcode_wheel.py:301 | The maximum y bearing bounds every glyph's top and is attained by some glyph. |
| `Glyphs.MinBottom` | barcode_wheel.py:305 | The minimum of y_bearing + height bounds every glyph's bottom and is attained by some glyph. |
| `Glyphs.InkWidth` | barcode_wheel.py:310-316 | The width is the pen position after every glyph but the last, plus the last glyph's x bearing and width. When the last glyph's ink fills its advance, it is the advance of the whole run. |
| `Glyphs.MeasuredBoxEnclosesInk` | barcode_wheel.py:301-321 | The box from y_offset down by height contains every glyph's ink. Some glyph touches its top and some glyph touches its bottom. |
| `Glyphs.MeasuredHeightNonNegative` | barcode_wheel.py:297-308 | When every glyph height is ≤ 0 (HarfBuzz's convention), the measured height is ≥ 0. |
| `Glyphs.SingleGlyphBox` | barcode_wheel.py:301-324 | One glyph measures (x_bearing + width, −height, y_bearing, −x_bearing). |
| `Glyphs.AppendGlyphWidth` | barcode_wheel.py:310-316 | Appending a glyph replaces the old last glyph's ink extent by its advance and adds the new glyph's bearing plus width. |
| `Glyphs.RepeatedGlyphWidth` | barcode_wheel.py:310-316 | k copies of a glyph whose ink fills its advance measure k times that advance. |
| `Glyphs.RepeatedInkWidth` | barcode_wheel.py:310-316 | k ≥ 1 copies of any glyph measure k − 1 advances plus the glyph's x bearing and width. |
| `Glyphs.OldTextBoundingBox` | harfbuzz_metrics.py:88-93 | Fails exactly on an empty run. The height is ≥ 0 and at least every glyph's absolute height. |
| `Glyphs.MaxAbsHeight` | harfbuzz_metrics.py:90 | The maximum absolute glyph height is ≥ 0, bounds every glyph and is attained by one. |
| `Glyphs.OldSingleGlyphBox` | harfbuzz_metrics.py:88-93 | One glyph measures (width, abs(height)) in the earlier variant. |
| `Glyphs.OldWidthMissesLastBearing` | harfbuzz_metrics.py:91-92 | The later width equals the earlier width plus the last glyph's x bearing. |
| `Glyphs.HeightsAgreeOnBaseline` | harfbuzz_metrics.py:90 | For glyphs with y bearing 0 and downward heights, both variants give the same height. |
| `Fitting.ScaleFactor` | barcode_wheel.py:327-337 | Fails with InvalidDimension exactly when some dimension is ≤ 0. Otherwise k > 0, the scaled source fits the target, and the width or the height fits exactly. |
| `Fitting.ScaleFactorIsGreatest` | barcode_wheel.py:327-337 | Every factor with which the source fits is ≤ the returned factor, so the result is the largest fit. |
| `Fitting.ScaleFactorScaleInvariant` | barcode_wheel.py:327-337 | Multiplying both boxes by the same m > 0 leaves the result unchanged: the same factor, or the same InvalidDimension failure. |
| `Fitting.BoxInBox` | barcode_wheel.py:365-380 | The result fits within the target and fills it in one dimension. It keeps the source's aspect ratio, has offsets ≥ 0, and is centred in both axes. |
| `Fitting.ScaledTextBoundingBox` | barcode_wheel.py:340-362 | A non-positive target gives InvalidDimension, checked before measuring. An empty run gives EmptyInput. On success it fits the target, fills it in one dimension, and equals the measured box with all four fields times `scale_factor(measured, target)`. |
| `Fitting.FontSizeInBox` | barcode_wheel.py:383-391 | An empty run gives EmptyInput, checked before the target. It succeeds exactly when the run, the target and the measured box are all non-degenerate. With a positive units-per-em the size is positive. |
| `Fitting.FittersAgree` | barcode_wheel.py:340-391 | Both fitters succeed on the same inputs. Their common factor k is `scale_factor` of the measured box into the target: the scaled box is the measured box times k, and the font size is units_per_em times k. |
| `Slices.GenVertices` | barcode_wheel.py:492-508 | The accumulate-and-stop loop emits exactly n vertices, and vertex k is at angle k·360/n on the circle. |
| `Slices.StepReachesFullTurn` | barcode_wheel.py:505-508 | After k steps of 360/n the angle is ≥ 360 exactly when k ≥ n. |
| `Slices.SlicePoints` | barcode_wheel.py:511-536 | Zipping the vertices with their left rotation gives n pairs, and pair i is (v[i], v[(i+1) mod n]). |
| `Slices.SlicesShareVertices` | barcode_wheel.py:528-536 | Pair i's second point is pair (i+1 mod n)'s first point. |
| `Slices.EveryVertexUsedTwice` | barcode_wheel.py:528-536 | Each vertex opens one slice and closes the cyclically previous one. |
| `Slices.GenSlicePoints` | barcode_wheel.py:511-536 | There are n pairs running from angle i·360/n to (i+1)·360/n, and the last pair closes at angle 0. |
| `Layout.BoxHeight` | barcode_wheel.py:539-544 | On a valid wheel the height is positive exactly when the distance is, and zero exactly at the centre. |
| `Layout.BoxHeightMeetsEdges` | barcode_wheel.py:539-544 | A box of height `box_height(d)` has its inner corners on the slice's straight edges, at distance d·r from the centre. |
| `Layout.BoxHeightMonotone` | barcode_wheel.py:539-544 | The height is 0 at d = 0 and grows strictly with d. |
| `Layout.MiddleBox` | barcode_wheel.py:611-641 | A non-terminal box has height `box_height(d)`, is vertically centred on the bisector, and carries its entry's rotation about its own centre. |
| `Layout.MiddleBoxInsideWedge` | barcode_wheel.py:615-631 | For d ≥ 0 and width ≥ 0 the inner corners lie on the wedge's edges and the outer corners lie inside them. |
| `Layout.ArcBox` | barcode_wheel.py:547-583 | Fails with MathDomain exactly when asin's argument h/2r leaves [−1, 1]. Otherwise the box is centred on the bisector, rotated 90° about its own centre, and both outer corners lie on the circle. |
| `Layout.MiddleBoxes` | barcode_wheel.py:609-645 | The running-sum loop gives one box per non-terminal entry, and entry k starts at Σ_{j<k}(padding_j + width_j) + padding_k. The distance it reaches, plus the last padding, is the terminal entry's prefix-sum distance. |
| `Layout.PlaceholderUse` | barcode_wheel.py:586-655 | The running-sum walk gives one box per entry, in order. Entry k's inner edge is at Σ_{j<k}(padding_j + width_j) + padding_k, and the last box is arc-bounded. It fails only through the terminal asin. |
| `Layout.PlaceholderUseAsWritten` | barcode_wheel.py:595-607 | A one-entry layout raises UnboundLocal. Every other layout behaves as `PlaceholderUse`: it succeeds exactly when the layout is empty or the terminal asin is defined, fails only with MathDomain, and on success gives the layout of the entries. |
| `Layout.LaidOutUnique` | barcode_wheel.py:586-655 | The entries determine their layout: two box lists that both fit the description of the walk are equal. |
| `Layout.SingleEntryLayout` | barcode_wheel.py:598-606 | The layout of one entry is the single arc-bounded box at its own padding. |
| `Layout.BoxesDoNotOverlap` | barcode_wheel.py:609-613 | With no negative fractions, each box ends along the bisector before every later box begins. |
| `Layout.SliceRotation` | barcode_wheel.py:775 | For k ≥ 1 the rotation (360/n)·(k − 0.5) is the midpoint of vertices k−1 and k. Slice 0's is the midpoint of vertex n−1, taken one turn back, and vertex 0. |
| `Layout.SliceRotationBisects` | barcode_wheel.py:764-777 | Consecutive slices' groups are rotated 360/n apart, and slice n's would be exactly one turn past slice 0's. |
| `Layout.OldPlaceholderGroup` | old_placeholder_group.py:1-71 | Returns one rectangle per layout entry, each rotated by (360/n)·(slice − 0.5) about the wheel's centre. |
| `Layout.OldAndNewAgree` | old_placeholder_group.py:23-69 | The prefix-sum layout gives exactly the running-sum boxes, with each box's own rotation replaced by the slice rotation about the centre. |
| `Layout.OldPlaceholderGroupFails` | old_placeholder_group.py:45-51 | The earlier layout fails exactly when the last entry's asin argument leaves its domain. |
| `Template.ParseOverrideKey` | barcode_wheel.py:706-717 | `name_padding` and `name_width`, for a non-empty lower-case name and with or without one final newline, match with that name and kind. |
| `Template.ParseOverrideSound` | barcode_wheel.py:706-717 | Only such keys match, and the matched name is non-empty and lower-case. |
| `Template.ParseOverride` | barcode_wheel.py:706 | A key that matches yields a non-empty, all lower-case region name. |
| `Template.ApplyOverrides` | barcode_wheel.py:708-720 | Overriding keeps the number of entries, their names and their rotations. |
| `Template.ApplyOverridesSpec` | barcode_wheel.py:708-720 | Each region's padding and width become the last matching keyword's value or stay at the default. The keywords handed back are exactly the unclaimed ones, in order. |
| `Template.OldApplyOverrides` | old_placeholder_group.py:87-106 | Every failure of the earlier override loop is PictureWidthFixed. |
| `Template.OldOverridesAgree` | old_placeholder_group.py:91-106 | The earlier loop fails exactly when some keyword claims `picture_width`. Otherwise it gives the same layout and keywords as the later loop. |
| `Template.OverflowAsWritten` | barcode_wheel.py:723 | For a non-empty layout, the check as written rejects exactly when the terminal's inner edge plus the terminal's own width exceeds 2. |
| `Template.OverflowChecksAgree` | barcode_wheel.py:722-726 | While the last width is 1, `total − 1 > 1` holds exactly when the terminal's inner edge lies beyond 1. |
| `Template.WideBarcodeFromKeywords` | barcode_wheel.py:711-720 | The keywords `barcode_padding=1.0, picture_width=0.0` produce the layout used in the first finding below. |
| `Template.OverflowAsWrittenMissesOverflow` | barcode_wheel.py:723 | That layout's terminal starts at 1.67 radii, yet the check as written accepts it. |
| `Template.DefaultsFit` | barcode_wheel.py:31-38 | The defaults put the barcode at 0.1 and the picture's inner edge at 0.77, and pass both checks. |
| `Template.CheckedTerminalInDomain` | barcode_wheel.py:562-563 | A layout with no negative fractions that passes the intended check keeps asin's argument in [−1, 1]. |
| `Template.LayOutSlices` | barcode_wheel.py:764-779 | The slice loop succeeds exactly when the terminal asin is defined and otherwise fails with MathDomain. On success there are n groups, and group k is rotated by (360/n)·(k − 0.5) and holds the layout of the entries. |
| `Template.WheelTemplateAsWritten` | barcode_wheel.py:689-781 | With the check as written, the overridden defaults fail with LayoutOverflow exactly when `total − 1 > 1`. A layout that passes fails only through the terminal asin, with MathDomain. Otherwise the result has n slice groups, group k rotated (360/n)·(k − 0.5) and holding the layout, and the unclaimed keywords come back. |
| `Template.WheelTemplate` | barcode_wheel.py:689-781 | The corrected check: the overridden defaults fail with LayoutOverflow exactly when the terminal region's inner edge lies beyond the arc, before any placement. A passing layout with no negative fractions succeeds. Otherwise the outcome is as for `Template.WheelTemplateAsWritten`. |
| `Template.TemplateOutcomeUnique` | barcode_wheel.py:722-781 | Once the check's verdict is fixed, the template's result is determined. |
| `Template.UnsetPictureWidth` | barcode_wheel.py:708-720 | When no keyword overrides `picture_width`, the overridden layout keeps its last region's width. |
| `Template.TemplatesAgreeOn` | barcode_wheel.py:722-726 | On a layout whose last width is 1, the template as written and the corrected template give the same result. |
| `Template.TemplatesAgree` | barcode_wheel.py:708-726 | Starting from defaults whose last region is the picture at width 1, as `PLACEHOLDER_DEFAULTS` is, both templates give the same result for any keywords that leave `picture_width` alone. |
| `Template.OldOverflowCheckIsExact` | old_placeholder_group.py:100-112 | In the earlier revision the picture keeps width 1, so its `total − 1 > 1` check is exactly the intended one. |
| `Template.OutlineWheel` | old_placeholder_group.py:74-156 | A claimed `picture_width` gives PictureWidthFixed. Otherwise the layout has the four default regions, and LayoutOverflow comes back exactly when it overflows. A layout that passes succeeds exactly when the terminal asin is defined and otherwise fails with MathDomain; with no negative fractions it always succeeds. On success there are n groups, and group k is exactly `placeholder_group`'s rectangles for slice k, each rotated with its slice about the centre. |

## Left out

- String input to `upc_value` is not modelled: Python's `int()` string grammar allows signs, spaces and underscores. Only integer input is modelled.
- Font discovery, HarfBuzz shaping and the cached buffer are not modelled (barcode_wheel.py:179-278). The glyph run is an input sequence. `font_size_in_box` reads units-per-em from a second shaping of the same string, taken here to be the same run.
- zint, lxml parsing, svgwrite construction, `text_filled_area`, `svg_uri_embed`, the wheel outline path and the CSV helpers are not modelled. They are subprocess, XML, SVG, base64 and file I/O.
- Floating point is not modelled. Sines, cosines and asin are abstract real parameters. The float accumulation in `gen_vertices` can emit one vertex too many or too few; exact reals emit exactly n.
- Slices.GenVertices: does not model num_slices ≤ 0. In Python, 0 divides by zero and a negative count never terminates.
- Layout.ValidWheel: a non-positive radius is not modelled. At 0 the terminal box divides by zero.
- The link between num_slices and the half-angle's sine and cosine is not stated, because the trigonometry is abstract.
- The SVG rotation is recorded, not applied. Each box keeps its rotation and pivot. Each slice group keeps its rotation about the centre.
- `placeholder_group` of barcode_wheel.py only collects `placeholder_use`'s output into a group. It is modelled as `Template.SliceGroup`.
- Keyword values are modelled as numbers. Other keywords pass through untouched, as `Template.ApplyOverridesSpec` states.
- Layout.OldPlaceholderGroup: the prefix distance at old_placeholder_group.py:26-31 is also `sum(spacings.values())`, so with the `rotation` keys of `PLACEHOLDER_DEFAULTS` it adds each earlier record's rotation too. On the defaults the picture would start at 90.77 radii, not 0.77. The model sums padding and width only, as the comment at old_placeholder_group.py:23 describes.
- Template.OutlineWheel: the records of `PLACEHOLDER_DEFAULTS` also carry `rotation` (0, 0, 90 and 90), so `sum(x.values())` at old_placeholder_group.py:109 totals 181.77 on the defaults. `outline_wheel` as written therefore raises unless keywords bring the paddings and widths to a total of at most −178, that is, at most −179 for everything but the picture's fixed width 1. The model sums padding and width only, as the comment at old_placeholder_group.py:108 says the check intends.
- old_placeholder_group.py has no imports or defaults of its own. The defaults of barcode_wheel.py are assumed. Its call `gen_slice_points(center, radius, num_slices)` does not match the argument order of barcode_wheel.py, and the path drawing it feeds is not modelled.
- `scale_factor` and `text_filled_area` of harfbuzz_metrics.py are not modelled. They call `chain`, which that file never imports, so they always raise NameError.
- Template.OutlineWheel: returns only the placeholder rectangles, not the pie group.

## Findings

| source | as written | input that shows it | evidently intended | confidence | as-written member | corrected member |
|---|---|---|---|---|---|---|
| barcode_wheel.py:723 | `total − 1 > 1` subtracts a fixed 1 for the picture's width, but `wheel_template` (unlike `outline_wheel`) lets `picture_width` be overridden | `barcode_padding=1.0, picture_width=0.0` (`Template.WideBarcodeFromKeywords`): the picture's inner edge is at 1.67 radii, outside the wheel, and the check accepts the layout (`Template.OverflowAsWrittenMissesOverflow`). The other way round, `picture_width=2.0` is rejected although the arc-bounded picture ignores its width | reject exactly when all paddings and non-terminal widths exceed 1 (`Template.Overflows`). The two checks agree while the picture keeps width 1 (`Template.TemplatesAgree`) | high; not executed | `Template.WheelTemplateAsWritten` | `Template.WheelTemplate` |
| barcode_wheel.py:598-606 | a one-entry layout reads `placeholder_dict[0]`, a name the loop below has not yet bound | a layout holding only `picture` | place the single arc-bounded box at its own padding, as `outline_wheel`'s `placeholder_group` does | high; not executed | `Layout.PlaceholderUseAsWritten` | `Layout.PlaceholderUse` |

=== FILE: errors.dfy ===
/** Failure values shared by every operation of the wheel core.

    The Python code raises exceptions; each way an operation can fail is a
    constructor of `Error`, and operations that can fail return a `Result`. */
module Errors {

  datatype Error =
    /** `upc_value` given a negative integer (a ValueError). */
    | NegativeValue
    /** `upc_value` given more than eleven digits (a ValueError). */
    | TooManyDigits
    /** A box dimension given to the scaling maths was not positive (a ValueError). */
    | InvalidDimension
    /** A glyph run with no glyphs: `max()` of an empty sequence (a ValueError). */
    | EmptyInput
    /** The paddings and widths of a layout exceed the slice (a ValueError). */
    | LayoutOverflow
    /** The earlier revision refuses to override the picture's width (a ValueError). */
    | PictureWidthFixed
    /** `asin` given an argument outside [-1, 1] (a math domain ValueError). */
    | MathDomain
    /** A local variable read before it was assigned (an UnboundLocalError). */
    | UnboundLocal

  datatype Result<+T> = Ok(value: T) | Err(error: Error) {

    predicate IsFailure() {
      Err?
    }

    function PropagateFailure<U>(): Result<U>
      requires Err?
    {
      Err(error)
    }

    function Extract(): T
      requires Ok?
    {
      value
    }
  }
}

=== FILE: fitting.dfy ===
/** Aspect-preserving box fitting: `scale_factor`, `box_in_box`,
    `scaled_text_bounding_box` and `font_size_in_box`, over exact reals. */
module Fitting {
  import opened Errors
  import opened Glyphs

  /** A (width, height) pair, as the Python tuples passed to the fitters. */
  datatype Dims = Dims(width: real, height: real)

  predicate Positive(d: Dims) {
    d.width > 0.0 && d.height > 0.0
  }

  /** The box `d` scaled by `k` fits inside `target`. */
  predicate FitsScaled(d: Dims, k: real, target: Dims) {
    d.width * k <= target.width && d.height * k <= target.height
  }

  function Min(a: real, b: real): real {
    if a <= b then a else b
  }

  /** `scale_factor`: the largest factor by which `source` can be scaled and still fit `target`. */
  function ScaleFactor(source: Dims, target: Dims): (r: Result<real>)
    ensures r.Ok? <==> Positive(source) && Positive(target)
    ensures !r.Ok? ==> r == Err(InvalidDimension)
    ensures r.Ok? ==> r.value > 0.0
    ensures r.Ok? ==> FitsScaled(source, r.value, target)
    ensures r.Ok? ==> source.width * r.value == target.width || source.height * r.value == target.height
  {
    if !(Positive(source) && Positive(target)) then Err(InvalidDimension)
    else
      var k := Min(target.width / source.width, target.height / source.height);
      assert source.width * (target.width / source.width) == target.width;
      assert source.height * (target.height / source.height) == target.height;
      Ok(k)
  }

  /** No factor larger than `scale_factor`'s result still fits: it is the tightest fit. */
  lemma ScaleFactorIsGreatest(source: Dims, target: Dims, k: real)
    requires Positive(source) && Positive(target)
    requires FitsScaled(source, k, target)
    ensures k <= ScaleFactor(source, target).value
  {
    var best := ScaleFactor(source, target).value;
    if source.width * best == target.width {
      assert source.width * k <= source.width * best;
    } else {
      assert source.height * k <= source.height * best;
    }
  }

  function ScaleDims(d: Dims, m: real): Dims {
    Dims(d.width * m, d.height * m)
  }

  /** Scaling both boxes alike leaves the factor, or the failure, unchanged. */
  lemma ScaleFactorScaleInvariant(source: Dims, target: Dims, m: real)
    requires m > 0.0
    ensures ScaleFactor(ScaleDims(source, m), ScaleDims(target, m)) == ScaleFactor(source, target)
  {
    if !(Positive(source) && Positive(target)) {
      return;
    }
    var s', t' := ScaleDims(source, m), ScaleDims(target, m);
    RatioCancel(target.width, source.width, m);
    RatioCancel(target.height, source.height, m);
    assert t'.width / s'.width == target.width / source.width;
    assert t'.height / s'.height == target.height / source.height;
  }

  lemma RatioCancel(a: real, b: real, m: real)
    requires b > 0.0 && m > 0.0
    ensures (a * m) / (b * m) == a / b
  {
    var q := a / b;
    assert q * b == a;
    assert q * (b * m) == a * m;
  }

  /** `box_in_box`: `source` scaled to fit `target`, centred inside it. */
  function BoxInBox(source: Dims, target: Dims): (r: Result<BBox<real>>)
    ensures r.Ok? <==> Positive(source) && Positive(target)
    ensures !r.Ok? ==> r == Err(InvalidDimension)
    ensures r.Ok? ==> 0.0 < r.value.width <= target.width && 0.0 < r.value.height <= target.height
    ensures r.Ok? ==> r.value.width == target.width || r.value.height == target.height
    ensures r.Ok? ==> r.value.width * source.height == r.value.height * source.width
    ensures r.Ok? ==> r.value.xOffset >= 0.0 && r.value.yOffset >= 0.0
    ensures r.Ok? ==> r.value.xOffset + r.value.width / 2.0 == target.width / 2.0
    ensures r.Ok? ==> r.value.yOffset + r.value.height / 2.0 == target.height / 2.0
  {
    var scale :- ScaleFactor(source, target);
    Ok(BBox(
      width := source.width * scale,
      height := source.height * scale,
      yOffset := (target.height - source.height * scale) / 2.0,
      xOffset := (target.width - source.width * scale) / 2.0))
  }

  function ToReal(b: BBox<int>): BBox<real> {
    BBox(b.width as real, b.height as real, b.yOffset as real, b.xOffset as real)
  }

  function MeasuredDims(b: BBox<int>): Dims {
    Dims(b.width as real, b.height as real)
  }

  /** `scaled_text_bounding_box`: the measured text box scaled uniformly to fit `target`. */
  function ScaledTextBoundingBox(target: Dims, run: seq<Metrics>): (r: Result<BBox<real>>)
    ensures !Positive(target) ==> r == Err(InvalidDimension)
    ensures Positive(target) && |run| == 0 ==> r == Err(EmptyInput)
    ensures r.Ok? <==> Positive(target) && |run| > 0
                       && Positive(MeasuredDims(TextBoundingBox(run).value))
    ensures r.Ok? ==> r.value.width <= target.width && r.value.height <= target.height
    ensures r.Ok? ==> r.value.width == target.width || r.value.height == target.height
    ensures r.Ok? ==>
      var measured := TextBoundingBox(run).value;
      r.value == Scaled(ToReal(measured), ScaleFactor(MeasuredDims(measured), target).value)
  {
    if !Positive(target) then Err(InvalidDimension)
    else
      var measured :- TextBoundingBox(run);
      ScaledToFit(measured, target)
  }

  /** The last step of `scaled_text_bounding_box`: a measured box scaled by
      `scale_factor` into `target`. */
  function ScaledToFit(measured: BBox<int>, target: Dims): (r: Result<BBox<real>>)
    ensures r.Ok? <==> Positive(MeasuredDims(measured)) && Positive(target)
    ensures !r.Ok? ==> r == Err(InvalidDimension)
    ensures r.Ok? ==> r.value.width <= target.width && r.value.height <= target.height
    ensures r.Ok? ==> r.value.width == target.width || r.value.height == target.height
    ensures r.Ok? ==> r.value == Scaled(ToReal(measured), ScaleFactor(MeasuredDims(measured), target).value)
  {
    var scale :- ScaleFactor(MeasuredDims(measured), target);
    Ok(Scaled(ToReal(measured), scale))
  }

  /** Every dimension and offset of `b` multiplied by the one factor `k`. */
  function Scaled(b: BBox<real>, k: real): BBox<real> {
    BBox(b.width * k, b.height * k, b.yOffset * k, b.xOffset * k)
  }

  /** `font_size_in_box`: the font size at which the text's ink fits `target` exactly. */
  function FontSizeInBox(target: Dims, run: seq<Metrics>): (r: Result<real>)
    ensures |run| == 0 ==> r == Err(EmptyInput)
    ensures r.Ok? <==> |run| > 0 && Positive(target)
                       && Positive(MeasuredDims(TextBoundingBox(run).value))
    ensures r.Ok? ==> run[0].unitsPerEm > 0 ==> r.value > 0.0
  {
    var measured :- TextBoundingBox(run);
    var scale :- ScaleFactor(MeasuredDims(measured), target);
    Ok(run[0].unitsPerEm as real * scale)
  }

  /** Both fitters use one scale factor, `scale_factor` of the measured box into
      the target: the scaled box is the measured box times it, and the font size
      is the units-per-em times it. They also succeed on exactly the same inputs. */
  lemma FittersAgree(target: Dims, run: seq<Metrics>)
    ensures ScaledTextBoundingBox(target, run).Ok? <==> FontSizeInBox(target, run).Ok?
    ensures FontSizeInBox(target, run).Ok? ==>
      var k := ScaleFactor(MeasuredDims(TextBoundingBox(run).value), target).value;
      && ScaledTextBoundingBox(target, run).value == Scaled(ToReal(TextBoundingBox(run).value), k)
      && FontSizeInBox(target, run).value == run[0].unitsPerEm as real * k
  {
  }
}

=== FILE: glyphs.dfy ===
/** Text measurement: folding a shaped glyph run into one ink bounding box.

    A glyph run is what the shaping engine returns for a string: one record per
    glyph with integer advances, offsets and ink extents in font units. HarfBuzz
    measures y upwards, so a glyph's `yBearing` is the top of its ink above the
    baseline and its `height` is negative (the ink extends downwards). */
module Glyphs {
  import opened Errors

  datatype Extents = Extents(xBearing: int, yBearing: int, width: int, height: int)

  datatype Positions = Positions(xAdvance: int, yAdvance: int, xOffset: int, yOffset: int)

  datatype Metrics = Metrics(positions: Positions, extents: Extents, unitsPerEm: int)

  /** A bounding box with insertion offsets; `int` for measured text, `real` once scaled. */
  datatype BBox<N> = BBox(width: N, height: N, yOffset: N, xOffset: N)

  /** Top of a glyph's ink above the baseline. */
  function Top(g: Metrics): int {
    g.extents.yBearing
  }

  /** Bottom of a glyph's ink, y upwards. */
  function Bottom(g: Metrics): int {
    g.extents.yBearing + g.extents.height
  }

  /** Highest ink point of a non-empty run: an upper bound that some glyph attains. */
  function MaxTop(run: seq<Metrics>): (m: int)
    requires |run| > 0
    ensures forall i :: 0 <= i < |run| ==> Top(run[i]) <= m
    ensures exists i :: 0 <= i < |run| && Top(run[i]) == m
  {
    if |run| == 1 then Top(run[0])
    else
      var rest := MaxTop(run[1..]);
      assert forall i :: 1 <= i < |run| ==> run[i] == run[1..][i - 1];
      if Top(run[0]) >= rest then Top(run[0]) else rest
  }

  /** Lowest ink point of a non-empty run: a lower bound that some glyph attains. */
  function MinBottom(run: seq<Metrics>): (m: int)
    requires |run| > 0
    ensures forall i :: 0 <= i < |run| ==> m <= Bottom(run[i])
    ensures exists i :: 0 <= i < |run| && Bottom(run[i]) == m
  {
    if |run| == 1 then Bottom(run[0])
    else
      var rest := MinBottom(run[1..]);
      assert forall i :: 1 <= i < |run| ==> run[i] == run[1..][i - 1];
      if Bottom(run[0]) <= rest then Bottom(run[0]) else rest
  }

  /** Sum of the horizontal advances of a run: the pen position after it. */
  function Advance(run: seq<Metrics>): int {
    if |run| == 0 then 0 else Advance(run[..|run| - 1]) + run[|run| - 1].positions.xAdvance
  }

  /** Distance from the pen origin to the right edge of the last glyph's ink: the
      pen position after the run, less the last advance, plus the last glyph's
      own ink extent. When the last glyph's ink fills its advance, that is just
      the run's advance. */
  function InkWidth(run: seq<Metrics>): (x: int)
    requires |run| > 0
    ensures var last := run[|run| - 1];
      x == Advance(run) - last.positions.xAdvance + last.extents.xBearing + last.extents.width
    ensures FillsAdvance(run[|run| - 1]) ==> x == Advance(run)
  {
    var last := run[|run| - 1];
    Advance(run[..|run| - 1]) + last.extents.xBearing + last.extents.width
  }

  /** `text_bounding_box` of barcode_wheel.py, given the glyph run of the string. */
  function TextBoundingBox(run: seq<Metrics>): (r: Result<BBox<int>>)
    ensures r.Ok? <==> |run| > 0
    ensures |run| == 0 ==> r == Err(EmptyInput)
    ensures r.Ok? ==> r.value.xOffset == -run[0].extents.xBearing
  {
    if |run| == 0 then Err(EmptyInput)
    else
      var top := MaxTop(run);
      var bottom := MinBottom(run);
      Ok(BBox(
        width := InkWidth(run),
        height := top - bottom,
        yOffset := top,
        xOffset := -run[0].extents.xBearing))
  }

  /** The measured box spans the ink of every glyph, and is tight: some glyph
      reaches its top edge (the y offset) and some glyph its bottom edge. */
  lemma MeasuredBoxEnclosesInk(run: seq<Metrics>)
    requires |run| > 0
    ensures var b := TextBoundingBox(run).value;
      && (forall i :: 0 <= i < |run| ==> Top(run[i]) <= b.yOffset && b.yOffset - b.height <= Bottom(run[i]))
      && (exists i :: 0 <= i < |run| && Top(run[i]) == b.yOffset)
      && (exists i :: 0 <= i < |run| && Bottom(run[i]) == b.yOffset - b.height)
  {
    var b := TextBoundingBox(run).value;
    assert b.yOffset == MaxTop(run) && b.yOffset - b.height == MinBottom(run);
  }

  /** Glyph heights are non-positive, as HarfBuzz reports them. */
  predicate DownwardHeights(run: seq<Metrics>) {
    forall i :: 0 <= i < |run| ==> run[i].extents.height <= 0
  }

  /** With HarfBuzz's height convention the measured height is never negative. */
  lemma MeasuredHeightNonNegative(run: seq<Metrics>)
    requires |run| > 0
    requires DownwardHeights(run)
    ensures TextBoundingBox(run).value.height >= 0
  {
    MeasuredBoxEnclosesInk(run);
    assert Bottom(run[0]) <= Top(run[0]);
  }

  /** A single glyph measures as its own ink box. */
  lemma SingleGlyphBox(g: Metrics)
    ensures TextBoundingBox([g]) == Ok(BBox(
      g.extents.xBearing + g.extents.width, -g.extents.height, g.extents.yBearing, -g.extents.xBearing))
  {
    assert [g][..0] == [];
  }

  /** Appending a glyph moves the right edge from the old last glyph's ink to the
      new glyph's ink, one advance further along. */
  lemma AppendGlyphWidth(run: seq<Metrics>, g: Metrics)
    requires |run| > 0
    ensures var last := run[|run| - 1];
      InkWidth(run + [g])
      == InkWidth(run) - last.extents.xBearing - last.extents.width
         + last.positions.xAdvance + g.extents.xBearing + g.extents.width
  {
    assert (run + [g])[..|run|] == run;
    assert run == run[..|run| - 1] + [run[|run| - 1]];
  }

  /** A monospaced glyph whose ink fills its advance. */
  predicate FillsAdvance(g: Metrics) {
    g.extents.xBearing == 0 && g.extents.width == g.positions.xAdvance
  }

  function Repeat(g: Metrics, k: nat): (run: seq<Metrics>)
    ensures |run| == k
    ensures forall i :: 0 <= i < k ==> run[i] == g
  {
    if k == 0 then [] else Repeat(g, k - 1) + [g]
  }

  /** Measuring k copies of a monospaced glyph gives k times its width. */
  lemma {:induction false} RepeatedGlyphWidth(g: Metrics, k: nat)
    requires FillsAdvance(g)
    requires k >= 1
    ensures TextBoundingBox(Repeat(g, k)).value.width == k * g.positions.xAdvance
  {
    RepeatedInkWidth(g, k);
  }

  /** k copies of any glyph measure k − 1 advances plus the glyph's own ink extent. */
  lemma {:induction false} RepeatedInkWidth(g: Metrics, k: nat)
    requires k >= 1
    ensures InkWidth(Repeat(g, k)) == (k - 1) * g.positions.xAdvance + g.extents.xBearing + g.extents.width
  {
    if k == 1 {
      assert Repeat(g, 1) == [g];
      assert [g][..0] == [];
    } else {
      RepeatedInkWidth(g, k - 1);
      AppendGlyphWidth(Repeat(g, k - 1), g);
    }
  }

  /** The earlier `text_bounding_box` of harfbuzz_metrics.py, returning (width, height). */
  function MaxAbsHeight(run: seq<Metrics>): (m: int)
    requires |run| > 0
    ensures m >= 0
    ensures forall i :: 0 <= i < |run| ==> Abs(run[i].extents.height) <= m
    ensures exists i :: 0 <= i < |run| && Abs(run[i].extents.height) == m
  {
    if |run| == 1 then Abs(run[0].extents.height)
    else
      var rest := MaxAbsHeight(run[1..]);
      assert forall i :: 1 <= i < |run| ==> run[i] == run[1..][i - 1];
      if Abs(run[0].extents.height) >= rest then Abs(run[0].extents.height) else rest
  }

  function Abs(x: int): int {
    if x < 0 then -x else x
  }

  function OldTextBoundingBox(run: seq<Metrics>): (r: Result<(int, int)>)
    ensures r.Ok? <==> |run| > 0
    ensures |run| == 0 ==> r == Err(EmptyInput)
    ensures r.Ok? ==> r.value.1 >= 0
    ensures r.Ok? ==> forall i :: 0 <= i < |run| ==> Abs(run[i].extents.height) <= r.value.1
  {
    if |run| == 0 then Err(EmptyInput)
    else Ok((Advance(run[..|run| - 1]) + run[|run| - 1].extents.width, MaxAbsHeight(run)))
  }

  /** A single glyph measures as (ink width, |ink height|) in the earlier variant. */
  lemma OldSingleGlyphBox(g: Metrics)
    ensures OldTextBoundingBox([g]) == Ok((g.extents.width, Abs(g.extents.height)))
  {
    assert [g][..0] == [];
  }

  /** The two measurements differ in width by exactly the last glyph's x bearing,
      which the earlier variant leaves out. */
  lemma OldWidthMissesLastBearing(run: seq<Metrics>)
    requires |run| > 0
    ensures TextBoundingBox(run).value.width
      == OldTextBoundingBox(run).value.0 + run[|run| - 1].extents.xBearing
  {
  }

  /** For glyphs that all sit with their tops on the baseline and ink downwards,
      the two variants agree on the height. */
  lemma HeightsAgreeOnBaseline(run: seq<Metrics>)
    requires |run| > 0
    requires DownwardHeights(run)
    requires forall i :: 0 <= i < |run| ==> run[i].extents.yBearing == 0
    ensures TextBoundingBox(run).value.height == OldTextBoundingBox(run).value.1
  {
    var b := TextBoundingBox(run).value;
    var h := OldTextBoundingBox(run).value.1;
    MeasuredBoxEnclosesInk(run);
    var i :| 0 <= i < |run| && Abs(run[i].extents.height) == h;
    var j :| 0 <= j < |run| && Bottom(run[j]) == b.yOffset - b.height;
    assert b.yOffset == 0 by {
      var k :| 0 <= k < |run| && Top(run[k]) == b.yOffset;
    }
    assert Bottom(run[i]) >= b.yOffset - b.height;
    assert Abs(run[j].extents.height) <= h;
  }
}

=== FILE: layout.dfy ===
/** Placeholder layout inside one slice of the wheel.

    A slice is laid out along its bisector, which the code takes as the +x axis
    from the wheel's centre before the whole slice is rotated into place. The
    trigonometry is abstract: `half` carries sin and cos of the slice's
    half-angle, and the terminal box's arc x (cos(asin(h/2r))·r) is the
    parameter `ax`, constrained by ax >= 0 and ax² + (h/2)² = r². */
module Layout {
  import opened Errors
  import opened Slices

  /** sin and cos of the half-angle 180/n degrees of a slice, n >= 2. */
  datatype HalfAngle = HalfAngle(sin: real, cos: real)

  /** One slice's frame: the wheel's centre and radius and the slice's half-angle. */
  datatype Wheel = Wheel(center: Point, radius: real, half: HalfAngle)

  predicate ValidWheel(w: Wheel) {
    && w.radius > 0.0
    && w.half.sin * w.half.sin + w.half.cos * w.half.cos == 1.0
    && 0.0 < w.half.sin
    && 0.0 <= w.half.cos
  }

  /** One named region of a slice; `padding` and `width` are fractions of the radius. */
  datatype Entry = Entry(name: string, padding: real, width: real, rotation: real)

  /** A placed rectangle: insertion corner, size, and a rotation in degrees about `pivot`. */
  datatype PlaceholderBox = PlaceholderBox(insert: Point, width: real, height: real, rotation: real, pivot: Point)

  /** `box_height`: the tallest box centred on the bisector whose inner edge is at
      fraction `d` of the radius from the centre. */
  function BoxHeight(w: Wheel, d: real): (h: real)
    ensures ValidWheel(w) ==> (h > 0.0 <==> d > 0.0) && (h == 0.0 <==> d == 0.0)
  {
    w.half.sin * d * w.radius * 2.0
  }

  /** The inner corners of a box of height `BoxHeight(d)` lie on the slice's two
      straight edges, at distance d·r from the centre; the height is zero at the
      centre and grows with the distance. */
  lemma BoxHeightMeetsEdges(w: Wheel, d: real)
    requires ValidWheel(w)
    ensures var h := BoxHeight(w, d); var x := d * w.half.cos * w.radius;
      && (h / 2.0) * w.half.cos == x * w.half.sin
      && x * x + (h / 2.0) * (h / 2.0) == (d * w.radius) * (d * w.radius)
  {
    var s, c, r := w.half.sin, w.half.cos, w.radius;
    assert BoxHeight(w, d) / 2.0 == s * (d * r);
    calc {
      (d * c * r) * (d * c * r) + (s * (d * r)) * (s * (d * r));
      (c * c + s * s) * ((d * r) * (d * r));
      (d * r) * (d * r);
    }
  }

  lemma BoxHeightMonotone(w: Wheel, d1: real, d2: real)
    requires ValidWheel(w)
    requires d1 <= d2
    ensures BoxHeight(w, 0.0) == 0.0
    ensures BoxHeight(w, d1) <= BoxHeight(w, d2)
    ensures d1 < d2 ==> BoxHeight(w, d1) < BoxHeight(w, d2)
  {
    var k := w.half.sin * w.radius * 2.0;
    assert k > 0.0;
    assert BoxHeight(w, d1) == k * d1 && BoxHeight(w, d2) == k * d2;
  }

  /** How far along the bisector, in x, the point at fraction `d` of the radius lies. */
  function Reach(w: Wheel, d: real): real {
    d * w.half.cos * w.radius
  }

  /** Width of a non-terminal region of fraction `f`: the fraction of the radius
      scaled by cos of the half-angle, independent of where the region starts. */
  function SpanWidth(w: Wheel, f: real): real {
    f * w.radius * w.half.cos
  }

  lemma ReachAdd(w: Wheel, d: real, f: real)
    ensures Reach(w, d) + SpanWidth(w, f) == Reach(w, d + f)
  {
    var cr := w.half.cos * w.radius;
    assert Reach(w, d) == d * cr && SpanWidth(w, f) == f * cr && Reach(w, d + f) == (d + f) * cr;
  }

  lemma ReachMonotone(w: Wheel, a: real, b: real)
    requires ValidWheel(w)
    requires a <= b
    ensures Reach(w, a) <= Reach(w, b)
  {
    var cr := w.half.cos * w.radius;
    assert cr >= 0.0;
    assert Reach(w, a) == a * cr && Reach(w, b) == b * cr;
  }

  /** A non-terminal region whose inner edge is at fraction `d`: its width is a
      fixed fraction of the radius, scaled by cos of the half-angle, and it is
      rotated by its own configured angle about its centre. */
  function MiddleBox(w: Wheel, d: real, e: Entry): (b: PlaceholderBox)
    ensures b.height == BoxHeight(w, d)
    ensures b.insert.y + b.height / 2.0 == w.center.y
    ensures b.pivot == Point(b.insert.x + b.width / 2.0, b.insert.y + b.height / 2.0)
    ensures b.rotation == e.rotation
  {
    var h := BoxHeight(w, d);
    var width := SpanWidth(w, e.width);
    var x := w.center.x + Reach(w, d);
    PlaceholderBox(Point(x, w.center.y - h / 2.0), width, h, e.rotation, Point(x + width / 2.0, w.center.y))
  }

  /** A non-terminal box sits inside the slice's wedge: its inner corners lie on
      the wedge's edges and its outer corners inside them. */
  lemma MiddleBoxInsideWedge(w: Wheel, d: real, e: Entry)
    requires ValidWheel(w)
    requires d >= 0.0 && e.width >= 0.0
    ensures var b := MiddleBox(w, d, e); var s, c := w.half.sin, w.half.cos;
      && (w.center.y - b.insert.y) * c == (b.insert.x - w.center.x) * s
      && (w.center.y - b.insert.y) * c <= (b.insert.x + b.width - w.center.x) * s
  {
    var b := MiddleBox(w, d, e);
    var s, c, r := w.half.sin, w.half.cos, w.radius;
    assert w.center.y - b.insert.y == s * d * r;
    assert b.insert.x - w.center.x == d * c * r;
    assert b.width * s >= 0.0 by {
      assert b.width == e.width * r * c;
    }
  }

  /** `asin(h / 2r)` is defined for the terminal box at distance `d`. */
  predicate InAsinDomain(w: Wheel, d: real)
    requires w.radius > 0.0
  {
    -1.0 <= BoxHeight(w, d) / (2.0 * w.radius) <= 1.0
  }

  /** `ax` is cos(asin(h/2r))·r for the box at distance `d`: the x at which the
      arc reaches height h/2 above the bisector. */
  predicate IsArcX(w: Wheel, d: real, ax: real)
    requires w.radius > 0.0
  {
    ax >= 0.0 && (InAsinDomain(w, d) ==>
      ax * ax + (BoxHeight(w, d) / 2.0) * (BoxHeight(w, d) / 2.0) == w.radius * w.radius)
  }

  /** `placeholder_last`: the terminal region, running from its inner edge out to
      the arc, always rotated by 90 degrees about its own centre. */
  function ArcBox(w: Wheel, d: real, ax: real): (r: Result<PlaceholderBox>)
    requires w.radius > 0.0
    ensures r.Ok? <==> InAsinDomain(w, d)
    ensures r.Err? ==> r.error == MathDomain
    ensures r.Ok? ==> r.value.height == BoxHeight(w, d)
    ensures r.Ok? ==> r.value.insert.y + r.value.height / 2.0 == w.center.y
    ensures r.Ok? ==> r.value.rotation == 90.0
    ensures r.Ok? ==> r.value.pivot == Point(r.value.insert.x + r.value.width / 2.0, r.value.insert.y + r.value.height / 2.0)
    // Both outer corners lie on the wheel's circle.
    ensures r.Ok? && IsArcX(w, d, ax) ==>
      var b := r.value; var dx := b.insert.x + b.width - w.center.x;
      && dx * dx + (b.insert.y - w.center.y) * (b.insert.y - w.center.y) == w.radius * w.radius
      && dx * dx + (b.insert.y + b.height - w.center.y) * (b.insert.y + b.height - w.center.y) == w.radius * w.radius
  {
    if !InAsinDomain(w, d) then Err(MathDomain)
    else
      var h := BoxHeight(w, d);
      var width := ax - Reach(w, d);
      var x := w.center.x + Reach(w, d);
      var y := w.center.y - h / 2.0;
      Ok(PlaceholderBox(Point(x, y), width, h, 90.0, Point(x + width / 2.0, y + h / 2.0)))
  }

  /** Sum of the paddings and widths of a run of entries. */
  function Consumed(es: seq<Entry>): real {
    if |es| == 0 then 0.0 else Consumed(es[..|es| - 1]) + es[|es| - 1].padding + es[|es| - 1].width
  }

  /** Fraction of the radius from the centre to entry k's inner edge: everything
      before it, then its own padding. */
  function Distance(spec: seq<Entry>, k: nat): real
    requires k < |spec|
  {
    Consumed(spec[..k]) + spec[k].padding
  }

  function TerminalDistance(spec: seq<Entry>): real
    requires |spec| > 0
  {
    Distance(spec, |spec| - 1)
  }

  /** `boxes` is the layout of `spec`: one box per entry, in order, the last one arc-bounded. */
  predicate LaidOut(w: Wheel, spec: seq<Entry>, ax: real, boxes: seq<PlaceholderBox>)
    requires w.radius > 0.0
  {
    && |boxes| == |spec|
    && (forall k :: 0 <= k < |spec| - 1 ==> boxes[k] == MiddleBox(w, Distance(spec, k), spec[k]))
    && (|spec| > 0 ==> ArcBox(w, TerminalDistance(spec), ax) == Ok(boxes[|spec| - 1]))
  }

  /** The loop of `placeholder_use` over every entry but the last: a running
      distance `right` from the centre, each entry's box starting one padding past
      it. Returns the boxes and the distance reached after the last of them. */
  method MiddleBoxes(w: Wheel, spec: seq<Entry>) returns (boxes: seq<PlaceholderBox>, right: real)
    requires ValidWheel(w)
    requires |spec| > 0
    ensures |boxes| == |spec| - 1
    ensures forall k :: 0 <= k < |spec| - 1 ==> boxes[k] == MiddleBox(w, Distance(spec, k), spec[k])
    ensures right + spec[|spec| - 1].padding == TerminalDistance(spec)
  {
    right := 0.0;
    boxes := [];
    var i := 0;
    while i < |spec| - 1
      invariant 0 <= i <= |spec| - 1
      invariant right == Consumed(spec[..i])
      invariant |boxes| == i
      invariant forall k :: 0 <= k < i ==> boxes[k] == MiddleBox(w, Distance(spec, k), spec[k])
    {
      var left := right + spec[i].padding;
      right := right + spec[i].padding + spec[i].width;
      assert spec[..i + 1][..i] == spec[..i];
      boxes := boxes + [MiddleBox(w, left, spec[i])];
      i := i + 1;
    }
  }

  /** `placeholder_use` with its one-entry branch corrected: the non-terminal
      entries are walked by `MiddleBoxes`, then the terminal entry is placed
      against the arc. */
  method PlaceholderUse(w: Wheel, spec: seq<Entry>, ax: real) returns (r: Result<seq<PlaceholderBox>>)
    requires ValidWheel(w)
    ensures |spec| == 0 ==> r == Ok([])
    ensures r.Ok? <==> |spec| == 0 || InAsinDomain(w, TerminalDistance(spec))
    ensures r.Err? ==> r.error == MathDomain
    ensures r.Ok? ==> LaidOut(w, spec, ax, r.value)
  {
    if |spec| == 0 {
      return Ok([]);
    }
    var boxes, right := MiddleBoxes(w, spec);
    var last := ArcBox(w, right + spec[|spec| - 1].padding, ax);
    match last {
      case Err(e) => r := Err(e);
      case Ok(b) => r := Ok(boxes + [b]);
    }
  }

  /** `placeholder_use` as written: a one-entry layout reads `placeholder_dict`
      before the loop has assigned it and raises instead of placing a box. */
  method PlaceholderUseAsWritten(w: Wheel, spec: seq<Entry>, ax: real) returns (r: Result<seq<PlaceholderBox>>)
    requires ValidWheel(w)
    ensures |spec| == 1 ==> r == Err(UnboundLocal)
    ensures |spec| != 1 ==> (r.Ok? <==> |spec| == 0 || InAsinDomain(w, TerminalDistance(spec)))
    ensures |spec| != 1 && r.Err? ==> r.error == MathDomain
    ensures r.Ok? ==> LaidOut(w, spec, ax, r.value)
  {
    if |spec| == 1 {
      return Err(UnboundLocal);
    }
    r := PlaceholderUse(w, spec, ax);
  }

  /** A layout is determined by its entries: `LaidOut` has at most one solution. */
  lemma LaidOutUnique(w: Wheel, spec: seq<Entry>, ax: real, b1: seq<PlaceholderBox>, b2: seq<PlaceholderBox>)
    requires ValidWheel(w)
    requires LaidOut(w, spec, ax, b1) && LaidOut(w, spec, ax, b2)
    ensures b1 == b2
  {
    forall k | 0 <= k < |spec|
      ensures b1[k] == b2[k]
    {
      if k == |spec| - 1 {
        assert Ok(b1[k]) == Ok(b2[k]);
      }
    }
  }

  /** The one-entry layout the as-written code refuses exists and is a single
      arc-bounded box starting at the entry's padding. */
  lemma SingleEntryLayout(w: Wheel, e: Entry, ax: real, boxes: seq<PlaceholderBox>)
    requires ValidWheel(w)
    requires LaidOut(w, [e], ax, boxes)
    ensures |boxes| == 1
    ensures Ok(boxes[0]) == ArcBox(w, e.padding, ax)
  {
    assert [e][..0] == [];
  }

  /** No entry has a negative padding or width. */
  predicate NonNegative(spec: seq<Entry>) {
    forall k :: 0 <= k < |spec| ==> spec[k].padding >= 0.0 && spec[k].width >= 0.0
  }

  lemma {:induction false} ConsumedMonotone(spec: seq<Entry>, i: nat, j: nat)
    requires NonNegative(spec)
    requires i <= j <= |spec|
    ensures Consumed(spec[..i]) <= Consumed(spec[..j])
  {
    if i < j {
      ConsumedMonotone(spec, i, j - 1);
      assert spec[..j][..j - 1] == spec[..j - 1];
    }
  }

  /** With no negative fractions the boxes of a layout follow one another outwards
      along the bisector without overlapping. */
  lemma BoxesDoNotOverlap(w: Wheel, spec: seq<Entry>, ax: real, boxes: seq<PlaceholderBox>, j: nat, k: nat)
    requires ValidWheel(w)
    requires NonNegative(spec)
    requires LaidOut(w, spec, ax, boxes)
    requires j < k < |spec|
    ensures boxes[j].insert.x + boxes[j].width <= boxes[k].insert.x
  {
    ConsumedMonotone(spec, j + 1, k);
    assert spec[..j + 1][..j] == spec[..j];
    var outer := Distance(spec, j) + spec[j].width;
    assert outer <= Distance(spec, k);
    OuterEdge(w, spec, ax, boxes, j);
    InnerEdge(w, spec, ax, boxes, k);
    ReachMonotone(w, outer, Distance(spec, k));
  }

  lemma OuterEdge(w: Wheel, spec: seq<Entry>, ax: real, boxes: seq<PlaceholderBox>, j: nat)
    requires w.radius > 0.0
    requires LaidOut(w, spec, ax, boxes)
    requires j < |spec| - 1
    ensures boxes[j].insert.x + boxes[j].width == w.center.x + Reach(w, Distance(spec, j) + spec[j].width)
  {
    assert boxes[j] == MiddleBox(w, Distance(spec, j), spec[j]);
    ReachAdd(w, Distance(spec, j), spec[j].width);
  }

  lemma InnerEdge(w: Wheel, spec: seq<Entry>, ax: real, boxes: seq<PlaceholderBox>, k: nat)
    requires w.radius > 0.0
    requires LaidOut(w, spec, ax, boxes)
    requires k < |spec|
    ensures boxes[k].insert.x == w.center.x + Reach(w, Distance(spec, k))
  {
    if k < |spec| - 1 {
      assert boxes[k] == MiddleBox(w, Distance(spec, k), spec[k]);
    } else {
      assert Ok(boxes[k]) == ArcBox(w, TerminalDistance(spec), ax);
    }
  }

  /** Rotation of slice `k`'s placeholder group about the wheel's centre. */
  function SliceRotation(n: nat, k: int): (a: real)
    requires n >= 1
    ensures k >= 1 ==> a == (VertexAngle(n, k - 1) + VertexAngle(n, k)) / 2.0
    ensures k == 0 ==> a == (VertexAngle(n, n - 1) - 360.0 + VertexAngle(n, 0)) / 2.0
  {
    (360.0 / n as real) * (k as real - 0.5)
  }

  /** Consecutive groups are one slice apart, so the n groups step round the
      wheel exactly once. */
  lemma SliceRotationBisects(n: nat, k: nat)
    requires n >= 1
    ensures SliceRotation(n, k + 1) - SliceRotation(n, k) == 360.0 / n as real
    ensures SliceRotation(n, n) - SliceRotation(n, 0) == 360.0
  {
    var step := 360.0 / n as real;
    assert step * n as real == 360.0;
  }

  /** A box given another rotation about another pivot. */
  function Reoriented(b: PlaceholderBox, angle: real, pivot: Point): PlaceholderBox {
    b.(rotation := angle, pivot := pivot)
  }

  /** `placeholder_group` of the earlier revision: entry i's distance is the prefix
      sum of all entries before it plus its own padding; only the last entry is
      arc-bounded; every rectangle is rotated with the slice about the centre. */
  function OldPlaceholderGroup(sliceNum: int, n: nat, w: Wheel, layout: seq<Entry>, ax: real)
    : (r: Result<seq<PlaceholderBox>>)
    requires n >= 1 && w.radius > 0.0
    ensures r.Ok? ==> |r.value| == |layout|
    ensures r.Ok? ==> forall i :: 0 <= i < |layout| ==>
      r.value[i].rotation == SliceRotation(n, sliceNum) && r.value[i].pivot == w.center
  {
    if |layout| > 0 && !InAsinDomain(w, TerminalDistance(layout)) then Err(MathDomain)
    else Ok(seq(|layout|, i requires 0 <= i < |layout| => OldRect(sliceNum, n, w, layout, i, ax)))
  }

  function OldRect(sliceNum: int, n: nat, w: Wheel, layout: seq<Entry>, i: nat, ax: real): PlaceholderBox
    requires n >= 1 && w.radius > 0.0
    requires i < |layout|
  {
    var d := Consumed(layout[..i]) + layout[i].padding;
    var h := BoxHeight(w, d);
    var width :=
      if i == |layout| - 1 then ax - Reach(w, d)
      else SpanWidth(w, layout[i].width);
    PlaceholderBox(
      Point(w.center.x + Reach(w, d), w.center.y - h / 2.0),
      width, h, SliceRotation(n, sliceNum), w.center)
  }

  /** The two revisions place the same rectangles: the earlier one's boxes are the
      later one's with each box's own rotation replaced by the slice's rotation
      about the wheel's centre. They fail on the same inputs, except that the
      earlier one also handles a single entry. */
  lemma OldAndNewAgree(sliceNum: int, n: nat, w: Wheel, spec: seq<Entry>, ax: real, boxes: seq<PlaceholderBox>)
    requires n >= 1 && ValidWheel(w)
    requires LaidOut(w, spec, ax, boxes)
    ensures OldPlaceholderGroup(sliceNum, n, w, spec, ax)
      == Ok(seq(|spec|, i requires 0 <= i < |spec| => Reoriented(boxes[i], SliceRotation(n, sliceNum), w.center)))
  {
    var earlier := OldPlaceholderGroup(sliceNum, n, w, spec, ax);
    var expected := seq(|spec|, i requires 0 <= i < |spec| => Reoriented(boxes[i], SliceRotation(n, sliceNum), w.center));
    assert earlier.Ok?;
    forall i | 0 <= i < |spec|
      ensures earlier.value[i] == expected[i]
    {
      if i < |spec| - 1 {
        assert boxes[i] == MiddleBox(w, Distance(spec, i), spec[i]);
      } else {
        assert Ok(boxes[i]) == ArcBox(w, TerminalDistance(spec), ax);
      }
    }
    assert earlier.value == expected;
  }

  /** The earlier revision fails exactly when the terminal box leaves asin's domain. */
  lemma OldPlaceholderGroupFails(sliceNum: int, n: nat, w: Wheel, layout: seq<Entry>, ax: real)
    requires n >= 1 && ValidWheel(w)
    ensures OldPlaceholderGroup(sliceNum, n, w, layout, ax).Err?
      <==> |layout| > 0 && !InAsinDomain(w, TerminalDistance(layout))
  {
  }
}

=== FILE: slices.dfy ===
/** Slice geometry: the points where the slices meet the circumference
    (`gen_vertices`) and the cyclic pairs bounding each slice (`gen_slice_points`).

    Angles are exact reals in degrees. The cosine/sine of an angle are not
    computed: `polar(a)` stands for the point (cos a, sin a) of the unit circle. */
module Slices {

  datatype Point = Point(x: real, y: real)

  /** The point at `angle` degrees on the circle of `radius` about `center`. */
  function OnCircle(center: Point, radius: real, polar: real -> Point, angle: real): Point {
    Point(polar(angle).x * radius + center.x, polar(angle).y * radius + center.y)
  }

  /** Angle of the k-th vertex when the circle is cut into n equal slices. */
  function VertexAngle(n: nat, k: nat): real
    requires n >= 1
  {
    k as real * (360.0 / n as real)
  }

  /** `gen_vertices`: starting at 0 degrees, emit a vertex, step by 360/n and stop
      once the angle reaches 360. Over exact reals it emits exactly n vertices. */
  method GenVertices(n: nat, center: Point, radius: real, polar: real -> Point)
    returns (vs: seq<Point>)
    requires n >= 1
    ensures |vs| == n
    ensures forall k :: 0 <= k < n ==> vs[k] == OnCircle(center, radius, polar, VertexAngle(n, k))
  {
    var step := 360.0 / n as real;
    var angle := 0.0;
    var k: nat := 0;
    vs := [];
    while true
      invariant k < n
      invariant angle == VertexAngle(n, k)
      invariant |vs| == k
      invariant forall j :: 0 <= j < k ==> vs[j] == OnCircle(center, radius, polar, VertexAngle(n, j))
      decreases n - k
    {
      vs := vs + [OnCircle(center, radius, polar, angle)];
      NextVertexAngle(n, k);
      angle := angle + step;
      k := k + 1;
      StepReachesFullTurn(n, k);
      if angle >= 360.0 {
        break;
      }
    }
  }

  lemma NextVertexAngle(n: nat, k: nat)
    requires n >= 1
    ensures VertexAngle(n, k) + 360.0 / n as real == VertexAngle(n, k + 1)
  {
  }

  /** After k steps of 360/n the angle has reached 360 exactly when k >= n. */
  lemma StepReachesFullTurn(n: nat, k: nat)
    requires n >= 1
    ensures VertexAngle(n, k) >= 360.0 <==> k >= n
  {
    var step := 360.0 / n as real;
    assert step * n as real == 360.0;
    if k >= n {
      assert k as real * step >= n as real * step;
    } else {
      assert k as real * step < n as real * step;
    }
  }

  /** `deque.rotate(-1)`: the first element moves to the back. */
  function RotateLeft<T>(s: seq<T>): seq<T> {
    if |s| == 0 then [] else s[1..] + [s[0]]
  }

  /** `gen_slice_points`: each vertex zipped with the left-rotated vertex list. */
  function SlicePoints(vs: seq<Point>): (pairs: seq<(Point, Point)>)
    ensures |pairs| == |vs|
    ensures forall i :: 0 <= i < |vs| ==> pairs[i] == (vs[i], vs[(i + 1) % |vs|])
  {
    var rotated := RotateLeft(vs);
    seq(|vs|, i requires 0 <= i < |vs| => (vs[i], rotated[i]))
  }

  /** Consecutive slices share a vertex, cyclically: the pairs close the circle. */
  lemma SlicesShareVertices(vs: seq<Point>, i: nat)
    requires i < |vs|
    ensures SlicePoints(vs)[i].1 == SlicePoints(vs)[(i + 1) % |vs|].0
  {
  }

  /** Every vertex opens exactly one slice and closes exactly one slice. */
  lemma EveryVertexUsedTwice(vs: seq<Point>, j: nat)
    requires j < |vs|
    ensures SlicePoints(vs)[j].0 == vs[j]
    ensures SlicePoints(vs)[(j + |vs| - 1) % |vs|].1 == vs[j]
  {
    var i := (j + |vs| - 1) % |vs|;
    if j == 0 {
      assert i == |vs| - 1;
    } else {
      assert i == j - 1;
    }
  }

  /** `gen_slice_points` over the vertices `gen_vertices` produces: n slices, the
      i-th running from the vertex at angle i*360/n to the one at (i+1)*360/n,
      with the last slice closing back at angle 0. */
  method GenSlicePoints(n: nat, center: Point, radius: real, polar: real -> Point)
    returns (pairs: seq<(Point, Point)>)
    requires n >= 1
    ensures |pairs| == n
    ensures forall i :: 0 <= i < n ==>
      pairs[i].0 == OnCircle(center, radius, polar, VertexAngle(n, i))
    ensures forall i :: 0 <= i < n - 1 ==>
      pairs[i].1 == OnCircle(center, radius, polar, VertexAngle(n, i + 1))
    ensures pairs[n - 1].1 == OnCircle(center, radius, polar, 0.0)
  {
    var vs := GenVertices(n, center, radius, polar);
    pairs := SlicePoints(vs);
    assert VertexAngle(n, 0) == 0.0;
  }
}

=== FILE: template.dfy ===
/** The configuration half of `wheel_template` (barcode_wheel.py) and of
    `outline_wheel` (the earlier revision): keyword overrides of the default
    layout, the up-front overflow check, and one placeholder layout per slice. */
module Template {
  import opened Errors
  import opened Layout

  /** `PLACEHOLDER_DEFAULTS`: barcode, UPC digits, name, and the picture that fills
      the rest of the slice. */
  const Defaults: seq<Entry> := [
    Entry("barcode", 0.1, 0.15, 0.0),
    Entry("upc", 0.05, 0.2, 0.0),
    Entry("name", 0.05, 0.2, 90.0),
    Entry("picture", 0.02, 1.0, 90.0)
  ]

  datatype Kind = Padding | Width

  datatype Option<+T> = None | Some(value: T)

  /** One keyword argument; keys are distinct, in call order. */
  datatype Kwarg = Kwarg(key: string, value: real)

  function KindText(kind: Kind): string {
    match kind
    case Padding => "padding"
    case Width => "width"
  }

  predicate IsLower(ch: char) {
    'a' <= ch <= 'z'
  }

  predicate AllLower(s: string) {
    forall i :: 0 <= i < |s| ==> IsLower(s[i])
  }

  /** Length of the longest prefix of `s` made of lower-case ASCII letters. */
  function LowerPrefix(s: string): (n: nat)
    ensures n <= |s|
    ensures AllLower(s[..n])
    ensures n < |s| ==> !IsLower(s[n])
  {
    if |s| == 0 || !IsLower(s[0]) then 0
    else
      var n := 1 + LowerPrefix(s[1..]);
      assert forall i :: 1 <= i < n ==> s[..n][i] == s[1..][..n - 1][i - 1];
      n
  }

  /** The key a caller writes to override `kind` of the region `name`. */
  function OverrideKey(name: string, kind: Kind): string {
    name + "_" + KindText(kind)
  }

  /** `^(?P<name>[a-z]+)_(?P<kind>(padding)|(width))$` matched against a key.
      Python's `$` also matches just before one final newline. */
  function ParseOverride(key: string): (r: Option<(string, Kind)>)
    ensures r.Some? ==> |r.value.0| > 0 && AllLower(r.value.0)
  {
    var body := if |key| > 0 && key[|key| - 1] == '\n' then key[..|key| - 1] else key;
    var n := LowerPrefix(body);
    if n == 0 || n == |body| || body[n] != '_' then None
    else if body[n + 1..] == "padding" then Some((body[..n], Padding))
    else if body[n + 1..] == "width" then Some((body[..n], Width))
    else None
  }

  /** Every well-formed override key, with or without a final newline, parses back
      to its region name and kind. */
  lemma ParseOverrideKey(name: string, kind: Kind)
    requires |name| > 0 && AllLower(name)
    ensures ParseOverride(OverrideKey(name, kind)) == Some((name, kind))
    ensures ParseOverride(OverrideKey(name, kind) + "\n") == Some((name, kind))
  {
    var key := OverrideKey(name, kind);
    assert key[..|key|] == key;
    assert (key + "\n")[..|key|] == key;
    LowerPrefixOfWord(name, "_" + KindText(kind));
    assert key == name + ("_" + KindText(kind));
    assert key[|name| + 1..] == KindText(kind);
  }

  lemma {:induction false} LowerPrefixOfWord(word: string, rest: string)
    requires AllLower(word)
    requires |rest| > 0 && !IsLower(rest[0])
    ensures LowerPrefix(word + rest) == |word|
  {
    if |word| > 0 {
      assert (word + rest)[1..] == word[1..] + rest;
      LowerPrefixOfWord(word[1..], rest);
    } else {
      assert word + rest == rest;
    }
  }

  /** Only well-formed override keys parse: the matched name is a non-empty run of
      lower-case letters and the key is its override key, possibly newline-ended. */
  lemma ParseOverrideSound(key: string)
    requires ParseOverride(key).Some?
    ensures var (name, kind) := ParseOverride(key).value;
      && |name| > 0 && AllLower(name)
      && (key == OverrideKey(name, kind) || key == OverrideKey(name, kind) + "\n")
  {
    var body := if |key| > 0 && key[|key| - 1] == '\n' then key[..|key| - 1] else key;
    var n := LowerPrefix(body);
    var (name, kind) := ParseOverride(key).value;
    assert body == body[..n] + "_" + body[n + 1..];
    assert body == OverrideKey(name, kind);
    if |key| > 0 && key[|key| - 1] == '\n' {
      assert key == body + "\n";
    }
  }

  predicate HasName(layout: seq<Entry>, name: string) {
    exists i :: 0 <= i < |layout| && layout[i].name == name
  }

  /** A keyword argument the layout takes for itself: a well-formed override key
      naming one of the layout's regions. */
  predicate Claims(layout: seq<Entry>, kw: Kwarg) {
    ParseOverride(kw.key).Some? && HasName(layout, ParseOverride(kw.key).value.0)
  }

  /** Set `kind` of every region called `name` to `v`. */
  function SetField(layout: seq<Entry>, name: string, kind: Kind, v: real): (r: seq<Entry>)
    ensures |r| == |layout|
    ensures forall i :: 0 <= i < |layout| ==> r[i].name == layout[i].name && r[i].rotation == layout[i].rotation
  {
    seq(|layout|, i requires 0 <= i < |layout| =>
      if layout[i].name != name then layout[i]
      else if kind == Padding then layout[i].(padding := v)
      else layout[i].(width := v))
  }

  /** The overriding loop of `wheel_template`: each claimed keyword, in call order,
      replaces one field of its region and is popped from the keywords. */
  function ApplyOverrides(layout: seq<Entry>, kwargs: seq<Kwarg>): (r: (seq<Entry>, seq<Kwarg>))
    ensures |r.0| == |layout|
    ensures forall i :: 0 <= i < |layout| ==> r.0[i].name == layout[i].name && r.0[i].rotation == layout[i].rotation
    decreases |kwargs|
  {
    if |kwargs| == 0 then (layout, [])
    else
      var kw := kwargs[0];
      if Claims(layout, kw) then
        var (name, kind) := ParseOverride(kw.key).value;
        ApplyOverrides(SetField(layout, name, kind, kw.value), kwargs[1..])
      else
        var (l, rest) := ApplyOverrides(layout, kwargs[1..]);
        (l, [kw] + rest)
  }

  /** The value of the last keyword that sets `kind` of `name`, if any; otherwise `default`. */
  function LastOverride(kwargs: seq<Kwarg>, name: string, kind: Kind, default: real): real {
    if |kwargs| == 0 then default
    else if ParseOverride(kwargs[|kwargs| - 1].key) == Some((name, kind)) then kwargs[|kwargs| - 1].value
    else LastOverride(kwargs[..|kwargs| - 1], name, kind, default)
  }

  /** The keywords left for the drawing code: those the layout did not claim, in order. */
  function Unclaimed(layout: seq<Entry>, kwargs: seq<Kwarg>): seq<Kwarg> {
    if |kwargs| == 0 then []
    else if Claims(layout, kwargs[0]) then Unclaimed(layout, kwargs[1..])
    else [kwargs[0]] + Unclaimed(layout, kwargs[1..])
  }

  /** The override loop sets each region's padding and width to the last keyword
      that names them, keeps everything else, and hands back exactly the
      unclaimed keywords. */
  lemma {:induction false} ApplyOverridesSpec(layout: seq<Entry>, kwargs: seq<Kwarg>)
    ensures var (l, rest) := ApplyOverrides(layout, kwargs);
      && rest == Unclaimed(layout, kwargs)
      && (forall i :: 0 <= i < |layout| ==>
            l[i].padding == LastOverride(kwargs, layout[i].name, Padding, layout[i].padding)
            && l[i].width == LastOverride(kwargs, layout[i].name, Width, layout[i].width))
    decreases |kwargs|
  {
    if |kwargs| > 0 {
      var kw := kwargs[0];
      var next := if Claims(layout, kw) then
        SetField(layout, ParseOverride(kw.key).value.0, ParseOverride(kw.key).value.1, kw.value)
        else layout;
      ApplyOverridesSpec(next, kwargs[1..]);
      SameNamesSameClaims(layout, next, kwargs[1..]);
      forall i | 0 <= i < |layout|
        ensures ApplyOverrides(layout, kwargs).0[i].padding == LastOverride(kwargs, layout[i].name, Padding, layout[i].padding)
        ensures ApplyOverrides(layout, kwargs).0[i].width == LastOverride(kwargs, layout[i].name, Width, layout[i].width)
      {
        LastOverrideFirst(kwargs, layout[i].name, Padding, layout[i].padding);
        LastOverrideFirst(kwargs, layout[i].name, Width, layout[i].width);
        if !Claims(layout, kw) && ParseOverride(kw.key).Some? {
          assert ParseOverride(kw.key).value.0 != layout[i].name;
        }
      }
    }
  }

  /** Reading the keywords from the front: the first keyword becomes the new default. */
  lemma {:induction false} LastOverrideFirst(kwargs: seq<Kwarg>, name: string, kind: Kind, default: real)
    requires |kwargs| > 0
    ensures LastOverride(kwargs, name, kind, default)
      == LastOverride(kwargs[1..], name, kind,
           if ParseOverride(kwargs[0].key) == Some((name, kind)) then kwargs[0].value else default)
    decreases |kwargs|
  {
    if |kwargs| > 1 {
      var init := kwargs[..|kwargs| - 1];
      assert init[1..] == kwargs[1..][..|kwargs[1..]| - 1];
      assert init[0] == kwargs[0];
      LastOverrideFirst(init, name, kind, default);
    }
  }

  /** Which keywords are claimed depends only on the layout's region names. */
  lemma {:induction false} SameNamesSameClaims(a: seq<Entry>, b: seq<Entry>, kwargs: seq<Kwarg>)
    requires |a| == |b|
    requires forall i :: 0 <= i < |a| ==> a[i].name == b[i].name
    ensures Unclaimed(a, kwargs) == Unclaimed(b, kwargs)
    decreases |kwargs|
  {
    if |kwargs| > 0 {
      assert Claims(a, kwargs[0]) <==> Claims(b, kwargs[0]) by {
        if ParseOverride(kwargs[0].key).Some? {
          var name := ParseOverride(kwargs[0].key).value.0;
          if HasName(a, name) {
            var i :| 0 <= i < |a| && a[i].name == name;
            assert b[i].name == name;
          }
          if HasName(b, name) {
            var i :| 0 <= i < |b| && b[i].name == name;
            assert a[i].name == name;
          }
        }
      }
      SameNamesSameClaims(a, b, kwargs[1..]);
    }
  }

  /** A keyword the earlier revision refuses: the picture's width. */
  predicate ClaimsPictureWidth(layout: seq<Entry>, kw: Kwarg) {
    Claims(layout, kw) && ParseOverride(kw.key).value == ("picture", Width)
  }

  /** The overriding loop of `outline_wheel`: as in `wheel_template`, except that
      a claimed `picture_width` raises. */
  function OldApplyOverrides(layout: seq<Entry>, kwargs: seq<Kwarg>): (r: Result<(seq<Entry>, seq<Kwarg>)>)
    ensures r.Err? ==> r.error == PictureWidthFixed
    decreases |kwargs|
  {
    if |kwargs| == 0 then Ok((layout, []))
    else
      var kw := kwargs[0];
      if Claims(layout, kw) then
        var (name, kind) := ParseOverride(kw.key).value;
        if name == "picture" && kind == Width then Err(PictureWidthFixed)
        else OldApplyOverrides(SetField(layout, name, kind, kw.value), kwargs[1..])
      else
        var rest :- OldApplyOverrides(layout, kwargs[1..]);
        Ok((rest.0, [kw] + rest.1))
  }

  /** The earlier revision refuses exactly the calls that claim the picture's
      width, and otherwise overrides exactly as the later one does. */
  lemma {:induction false} OldOverridesAgree(layout: seq<Entry>, kwargs: seq<Kwarg>)
    ensures OldApplyOverrides(layout, kwargs).Err?
      <==> exists i :: 0 <= i < |kwargs| && ClaimsPictureWidth(layout, kwargs[i])
    ensures OldApplyOverrides(layout, kwargs).Ok? ==>
      OldApplyOverrides(layout, kwargs).value == ApplyOverrides(layout, kwargs)
    decreases |kwargs|
  {
    if |kwargs| > 0 {
      var kw := kwargs[0];
      var next := if Claims(layout, kw) then
        SetField(layout, ParseOverride(kw.key).value.0, ParseOverride(kw.key).value.1, kw.value)
        else layout;
      OldOverridesAgree(next, kwargs[1..]);
      forall i | 0 <= i < |kwargs[1..]|
        ensures ClaimsPictureWidth(next, kwargs[1..][i]) <==> ClaimsPictureWidth(layout, kwargs[1..][i])
      {
        SameNamesSameClaimsOne(layout, next, kwargs[1..][i]);
      }
      if OldApplyOverrides(layout, kwargs).Err? && !ClaimsPictureWidth(layout, kw) {
        var i :| 0 <= i < |kwargs[1..]| && ClaimsPictureWidth(layout, kwargs[1..][i]);
        assert kwargs[i + 1] == kwargs[1..][i];
      }
      if exists i :: 0 <= i < |kwargs| && ClaimsPictureWidth(layout, kwargs[i]) {
        var i :| 0 <= i < |kwargs| && ClaimsPictureWidth(layout, kwargs[i]);
        if i > 0 {
          assert kwargs[1..][i - 1] == kwargs[i];
        }
      }
    }
  }

  lemma SameNamesSameClaimsOne(a: seq<Entry>, b: seq<Entry>, kw: Kwarg)
    requires |a| == |b|
    requires forall i :: 0 <= i < |a| ==> a[i].name == b[i].name
    ensures Claims(a, kw) <==> Claims(b, kw)
  {
    if ParseOverride(kw.key).Some? {
      var name := ParseOverride(kw.key).value.0;
      if HasName(a, name) {
        var i :| 0 <= i < |a| && a[i].name == name;
        assert b[i].name == name;
      }
      if HasName(b, name) {
        var i :| 0 <= i < |b| && b[i].name == name;
        assert a[i].name == name;
      }
    }
  }

  /** Python's check `sum(paddings and widths of every entry) - 1 > 1`: the `- 1`
      stands for the picture's width, assumed to be 1. */
  predicate OverflowAsWritten(layout: seq<Entry>)
    ensures |layout| > 0 ==>
      (OverflowAsWritten(layout) <==> TerminalDistance(layout) + layout[|layout| - 1].width > 2.0)
  {
    Consumed(layout) - 1.0 > 1.0
  }

  /** The intended check: the terminal region's inner edge, every padding and
      non-terminal width plus the terminal's padding, lies beyond the arc. */
  predicate Overflows(layout: seq<Entry>) {
    |layout| > 0 && TerminalDistance(layout) > 1.0
  }

  lemma ConsumedSplitsAtTerminal(layout: seq<Entry>)
    requires |layout| > 0
    ensures Consumed(layout) == TerminalDistance(layout) + layout[|layout| - 1].width
  {
  }

  /** While the last region's width is 1, as the defaults have it, the check as
      written is exactly the intended one. */
  lemma OverflowChecksAgree(layout: seq<Entry>)
    requires |layout| > 0 && layout[|layout| - 1].width == 1.0
    ensures OverflowAsWritten(layout) <==> Overflows(layout)
  {
    ConsumedSplitsAtTerminal(layout);
  }

  /** The layout a caller gets from `barcode_padding=1.0, picture_width=0.0`. */
  const WideBarcode: seq<Entry> := [
    Entry("barcode", 1.0, 0.15, 0.0),
    Entry("upc", 0.05, 0.2, 0.0),
    Entry("name", 0.05, 0.2, 90.0),
    Entry("picture", 0.02, 0.0, 90.0)
  ]

  lemma WideBarcodeFromKeywords()
    ensures ApplyOverrides(Defaults, [Kwarg("barcode_padding", 1.0), Kwarg("picture_width", 0.0)]).0
      == WideBarcode
  {
    var kw0, kw1 := Kwarg("barcode_padding", 1.0), Kwarg("picture_width", 0.0);
    var step := SetField(Defaults, "barcode", Padding, 1.0);
    ExampleKeysParse();
    assert Claims(Defaults, kw0) by {
      assert Defaults[0].name == "barcode";
    }
    assert [kw0, kw1][1..] == [kw1];
    assert ApplyOverrides(Defaults, [kw0, kw1]) == ApplyOverrides(step, [kw1]);
    SecondOverride(step);
  }

  lemma ExampleKeysParse()
    ensures ParseOverride("barcode_padding") == Some(("barcode", Padding))
    ensures ParseOverride("picture_width") == Some(("picture", Width))
  {
    ParseOverrideKey("barcode", Padding);
    assert OverrideKey("barcode", Padding) == "barcode_padding";
    ParseOverrideKey("picture", Width);
    assert OverrideKey("picture", Width) == "picture_width";
  }

  lemma SecondOverride(step: seq<Entry>)
    requires step == SetField(Defaults, "barcode", Padding, 1.0)
    requires ParseOverride("picture_width") == Some(("picture", Width))
    ensures ApplyOverrides(step, [Kwarg("picture_width", 0.0)]).0 == WideBarcode
  {
    var kw1 := Kwarg("picture_width", 0.0);
    FirstStep(step);
    assert step[3].name == "picture";
    assert Claims(step, kw1);
    assert [kw1][1..] == [];
    var last := SetField(step, "picture", Width, 0.0);
    assert ApplyOverrides(step, [kw1]) == ApplyOverrides(last, []);
    LastStep(step, last);
  }

  lemma FirstStep(step: seq<Entry>)
    requires step == SetField(Defaults, "barcode", Padding, 1.0)
    ensures step == [Entry("barcode", 1.0, 0.15, 0.0), Defaults[1], Defaults[2], Defaults[3]]
  {
    assert Defaults[1].name != "barcode" by { assert Defaults[1].name[0] != 'b'; }
    assert Defaults[2].name != "barcode" by { assert Defaults[2].name[0] != 'b'; }
    assert Defaults[3].name != "barcode" by { assert Defaults[3].name[0] != 'b'; }
  }

  lemma LastStep(step: seq<Entry>, last: seq<Entry>)
    requires step == [Entry("barcode", 1.0, 0.15, 0.0), Defaults[1], Defaults[2], Defaults[3]]
    requires last == SetField(step, "picture", Width, 0.0)
    ensures last == WideBarcode
  {
    assert step[0].name != "picture" by { assert step[0].name[0] != 'p'; }
    assert step[1].name != "picture" by { assert step[1].name[0] != 'p'; }
    assert step[2].name != "picture" by { assert step[2].name[0] != 'p'; }
  }

  /** `wheel_template` lets a caller override `picture_width`, and the check as
      written then moves with it: with `barcode_padding=1.0, picture_width=0.0`
      the terminal region starts at 1.67 radii, beyond the arc, and is accepted. */
  lemma OverflowAsWrittenMissesOverflow()
    ensures TerminalDistance(WideBarcode) == 1.67
    ensures !OverflowAsWritten(WideBarcode)
    ensures Overflows(WideBarcode)
  {
    var l := WideBarcode;
    assert l[..3][..2] == l[..2] && l[..2][..1] == l[..1] && l[..1][..0] == [];
    assert Consumed(l[..1]) == 1.15;
    assert Consumed(l[..2]) == 1.4;
    assert Consumed(l[..3]) == 1.65;
    ConsumedSplitsAtTerminal(l);
  }

  /** The default layout fits: its terminal region starts at 0.77 of the radius,
      and the barcode's inner edge is at 0.1. */
  lemma DefaultsFit()
    ensures Distance(Defaults, 0) == 0.1
    ensures TerminalDistance(Defaults) == 0.77
    ensures !Overflows(Defaults) && !OverflowAsWritten(Defaults)
  {
    var l := Defaults;
    assert l[..3][..2] == l[..2] && l[..2][..1] == l[..1] && l[..1][..0] == [];
    assert l[..0] == [];
    assert Consumed(l[..1]) == 0.25;
    assert Consumed(l[..2]) == 0.5;
    assert Consumed(l[..3]) == 0.75;
    ConsumedSplitsAtTerminal(l);
  }

  /** With no negative fractions, a layout that passes the intended check cannot
      make the terminal box's `asin` fail. */
  lemma CheckedTerminalInDomain(w: Wheel, layout: seq<Entry>)
    requires ValidWheel(w)
    requires NonNegative(layout)
    requires |layout| > 0 && !Overflows(layout)
    ensures InAsinDomain(w, TerminalDistance(layout))
  {
    var d := TerminalDistance(layout);
    ConsumedMonotone(layout, 0, |layout| - 1);
    assert layout[..0] == [];
    assert 0.0 <= d <= 1.0;
    var s, r := w.half.sin, w.radius;
    assert s <= 1.0;
    assert BoxHeight(w, d) / (2.0 * r) == s * d;
    assert s * d <= s * 1.0;
  }

  /** One slice's placeholder group: its rotation about the wheel's centre and its boxes. */
  datatype SliceGroup = SliceGroup(rotation: real, boxes: seq<PlaceholderBox>)

  /** What `wheel_template` yields for `layout` once its overflow check has said
      `rejected`: LayoutOverflow exactly when the check rejects; otherwise n slice
      groups, each the layout of `layout` rotated into its slice, unless the
      terminal box's `asin` fails (MathDomain); the unclaimed keywords `rest` are
      handed back. */
  predicate TemplateOutcome(n: nat, w: Wheel, layout: seq<Entry>, rest: seq<Kwarg>, ax: real,
                            rejected: bool, r: Result<(seq<SliceGroup>, seq<Kwarg>)>)
    requires n >= 1 && ValidWheel(w) && |layout| > 0
  {
    && (rejected ==> r == Err(LayoutOverflow))
    && (r.Err? && r.error == LayoutOverflow ==> rejected)
    && (!rejected ==> (r.Ok? <==> InAsinDomain(w, TerminalDistance(layout))))
    && (r.Err? ==> r.error == LayoutOverflow || r.error == MathDomain)
    && (r.Ok? ==> r.value.1 == rest && |r.value.0| == n)
    && (r.Ok? ==> forall k :: 0 <= k < n ==>
          r.value.0[k].rotation == SliceRotation(n, k) && LaidOut(w, layout, ax, r.value.0[k].boxes))
  }

  /** The slice loop of `wheel_template`: every slice gets the same layout, its
      group rotated by `SliceRotation`. The first failing `asin` stops the loop. */
  method LayOutSlices(n: nat, w: Wheel, layout: seq<Entry>, ax: real) returns (r: Result<seq<SliceGroup>>)
    requires n >= 1 && ValidWheel(w) && |layout| > 0
    ensures r.Ok? <==> InAsinDomain(w, TerminalDistance(layout))
    ensures r.Err? ==> r.error == MathDomain
    ensures r.Ok? ==> |r.value| == n
    ensures r.Ok? ==> forall k :: 0 <= k < n ==>
      r.value[k].rotation == SliceRotation(n, k) && LaidOut(w, layout, ax, r.value[k].boxes)
  {
    var groups: seq<SliceGroup> := [];
    var k := 0;
    while k < n
      invariant 0 <= k <= n
      invariant k > 0 ==> InAsinDomain(w, TerminalDistance(layout))
      invariant |groups| == k
      invariant forall j :: 0 <= j < k ==>
        groups[j].rotation == SliceRotation(n, j) && LaidOut(w, layout, ax, groups[j].boxes)
    {
      var boxes := PlaceholderUse(w, layout, ax);
      if boxes.Err? {
        return Err(boxes.error);
      }
      groups := groups + [SliceGroup(SliceRotation(n, k), boxes.value)];
      k := k + 1;
    }
    r := Ok(groups);
  }

  /** The layout part of `wheel_template` as written: override the defaults, reject
      when `total - 1 > 1`, then lay out every slice. The picture's width counts in
      the total although the keywords may change it. */
  method WheelTemplateAsWritten(n: nat, w: Wheel, kwargs: seq<Kwarg>, ax: real)
    returns (r: Result<(seq<SliceGroup>, seq<Kwarg>)>)
    requires n >= 1 && ValidWheel(w)
    ensures var (layout, rest) := ApplyOverrides(Defaults, kwargs);
      TemplateOutcome(n, w, layout, rest, ax, OverflowAsWritten(layout), r)
  {
    var (layout, rest) := ApplyOverrides(Defaults, kwargs);
    if OverflowAsWritten(layout) {
      return Err(LayoutOverflow);
    }
    var groups :- LayOutSlices(n, w, layout, ax);
    r := Ok((groups, rest));
  }

  /** The layout part of `wheel_template` with the overflow check corrected to test
      where the terminal region starts. A layout with no negative fractions that
      passes it always succeeds. */
  method WheelTemplate(n: nat, w: Wheel, kwargs: seq<Kwarg>, ax: real)
    returns (r: Result<(seq<SliceGroup>, seq<Kwarg>)>)
    requires n >= 1 && ValidWheel(w)
    ensures var (layout, rest) := ApplyOverrides(Defaults, kwargs);
      && TemplateOutcome(n, w, layout, rest, ax, Overflows(layout), r)
      && (!Overflows(layout) && NonNegative(layout) ==> r.Ok?)
  {
    var (layout, rest) := ApplyOverrides(Defaults, kwargs);
    if Overflows(layout) {
      return Err(LayoutOverflow);
    }
    if NonNegative(layout) {
      CheckedTerminalInDomain(w, layout);
    }
    var groups :- LayOutSlices(n, w, layout, ax);
    r := Ok((groups, rest));
  }

  /** Once the check's verdict is fixed, the outcome is fixed. */
  lemma TemplateOutcomeUnique(n: nat, w: Wheel, layout: seq<Entry>, rest: seq<Kwarg>, ax: real, rejected: bool,
                              r1: Result<(seq<SliceGroup>, seq<Kwarg>)>, r2: Result<(seq<SliceGroup>, seq<Kwarg>)>)
    requires n >= 1 && ValidWheel(w) && |layout| > 0
    requires TemplateOutcome(n, w, layout, rest, ax, rejected, r1)
    requires TemplateOutcome(n, w, layout, rest, ax, rejected, r2)
    ensures r1 == r2
  {
    if r1.Ok? {
      assert r2.Ok?;
      var g1, g2 := r1.value.0, r2.value.0;
      forall k | 0 <= k < n
        ensures g1[k] == g2[k]
      {
        LaidOutUnique(w, layout, ax, g1[k].boxes, g2[k].boxes);
      }
      assert g1 == g2;
    } else if rejected {
      assert r1 == r2 == Err(LayoutOverflow);
    } else {
      assert r1 == Err(MathDomain) && r2 == Err(MathDomain);
    }
  }

  /** A caller who leaves `picture_width` alone keeps the picture's width. */
  lemma UnsetPictureWidth(layout: seq<Entry>, kwargs: seq<Kwarg>)
    requires |layout| > 0 && layout[|layout| - 1].name == "picture"
    requires forall i :: 0 <= i < |kwargs| ==> ParseOverride(kwargs[i].key) != Some(("picture", Width))
    ensures |ApplyOverrides(layout, kwargs).0| == |layout|
    ensures ApplyOverrides(layout, kwargs).0[|layout| - 1].width == layout[|layout| - 1].width
  {
    ApplyOverridesSpec(layout, kwargs);
    LastOverrideUnset(kwargs, "picture", Width, layout[|layout| - 1].width);
  }

  /** On a layout whose picture keeps the default width 1, the check as written
      and the corrected check lead to the same result. */
  lemma TemplatesAgreeOn(n: nat, w: Wheel, layout: seq<Entry>, rest: seq<Kwarg>, ax: real,
                         corrected: Result<(seq<SliceGroup>, seq<Kwarg>)>, asWritten: Result<(seq<SliceGroup>, seq<Kwarg>)>)
    requires n >= 1 && ValidWheel(w) && |layout| > 0 && layout[|layout| - 1].width == 1.0
    requires TemplateOutcome(n, w, layout, rest, ax, Overflows(layout), corrected)
    requires TemplateOutcome(n, w, layout, rest, ax, OverflowAsWritten(layout), asWritten)
    ensures corrected == asWritten
  {
    OverflowChecksAgree(layout);
    TemplateOutcomeUnique(n, w, layout, rest, ax, Overflows(layout), corrected, asWritten);
  }

  /** Unless `picture_width` is overridden, `wheel_template` as written and with
      the corrected check give the same result on any layout whose last region is
      the picture at width 1, as in `PLACEHOLDER_DEFAULTS`. */
  lemma TemplatesAgree(n: nat, w: Wheel, defaults: seq<Entry>, kwargs: seq<Kwarg>, ax: real,
                       corrected: Result<(seq<SliceGroup>, seq<Kwarg>)>, asWritten: Result<(seq<SliceGroup>, seq<Kwarg>)>)
    requires n >= 1 && ValidWheel(w)
    requires |defaults| > 0 && defaults[|defaults| - 1].name == "picture" && defaults[|defaults| - 1].width == 1.0
    requires forall i :: 0 <= i < |kwargs| ==> ParseOverride(kwargs[i].key) != Some(("picture", Width))
    requires var (layout, rest) := ApplyOverrides(defaults, kwargs);
      && TemplateOutcome(n, w, layout, rest, ax, Overflows(layout), corrected)
      && TemplateOutcome(n, w, layout, rest, ax, OverflowAsWritten(layout), asWritten)
    ensures corrected == asWritten
  {
    UnsetPictureWidth(defaults, kwargs);
    TemplatesAgreeOn(n, w, ApplyOverrides(defaults, kwargs).0, ApplyOverrides(defaults, kwargs).1, ax, corrected, asWritten);
  }


  /** The last override of a (name, kind) no keyword claims is the default. */
  lemma {:induction false} LastOverrideUnset(kwargs: seq<Kwarg>, name: string, kind: Kind, default: real)
    requires forall i :: 0 <= i < |kwargs| ==> ParseOverride(kwargs[i].key) != Some((name, kind))
    ensures LastOverride(kwargs, name, kind, default) == default
  {
    if |kwargs| > 0 {
      LastOverrideUnset(kwargs[..|kwargs| - 1], name, kind, default);
    }
  }

  /** In the earlier revision the picture's width is always the default 1, so its
      check as written is exactly the intended one. */
  lemma OldOverflowCheckIsExact(kwargs: seq<Kwarg>)
    requires OldApplyOverrides(Defaults, kwargs).Ok?
    ensures var layout := OldApplyOverrides(Defaults, kwargs).value.0;
      && |layout| == 4 && layout[3].width == 1.0
      && (OverflowAsWritten(layout) <==> Overflows(layout))
  {
    OldOverridesAgree(Defaults, kwargs);
    assert HasName(Defaults, "picture") by {
      assert Defaults[3].name == "picture";
    }
    forall i | 0 <= i < |kwargs|
      ensures ParseOverride(kwargs[i].key) != Some(("picture", Width))
    {
      if ParseOverride(kwargs[i].key) == Some(("picture", Width)) {
        assert ClaimsPictureWidth(Defaults, kwargs[i]);
      }
    }
    UnsetPictureWidth(Defaults, kwargs);
    OverflowChecksAgree(OldApplyOverrides(Defaults, kwargs).value.0);
  }

  /** The layout part of `outline_wheel`, the earlier revision: override the
      defaults (refusing `picture_width`), check the layout with the check as
      written, then lay out every slice as `placeholder_group` does. */
  function OutlineWheel(n: nat, w: Wheel, kwargs: seq<Kwarg>, ax: real): (r: Result<seq<seq<PlaceholderBox>>>)
    requires n >= 1 && ValidWheel(w)
    ensures OldApplyOverrides(Defaults, kwargs).Err? ==> r == Err(PictureWidthFixed)
    ensures r.Ok? ==> |r.value| == n
    ensures OldApplyOverrides(Defaults, kwargs).Ok? ==>
      var layout := OldApplyOverrides(Defaults, kwargs).value.0;
      && |layout| == 4
      && (r == Err(LayoutOverflow) <==> Overflows(layout))
      && (r.Err? && !Overflows(layout) ==> r.error == MathDomain)
      && (!Overflows(layout) ==> (r.Ok? <==> InAsinDomain(w, TerminalDistance(layout))))
      && (!Overflows(layout) && NonNegative(layout) ==> r.Ok?)
      && (r.Ok? ==> forall k :: 0 <= k < n ==> OldPlaceholderGroup(k, n, w, layout, ax) == Ok(r.value[k]))
    ensures r.Ok? ==> forall k, i :: 0 <= k < n && 0 <= i < |r.value[k]| ==>
      r.value[k][i].rotation == SliceRotation(n, k) && r.value[k][i].pivot == w.center
  {
    var overridden :- OldApplyOverrides(Defaults, kwargs);
    var layout := overridden.0;
    OldOverflowCheckIsExact(kwargs);
    if OverflowAsWritten(layout) then Err(LayoutOverflow)
    else if !InAsinDomain(w, TerminalDistance(layout)) then
      assert !NonNegative(layout) by {
        if NonNegative(layout) {
          CheckedTerminalInDomain(w, layout);
        }
      }
      Err(MathDomain)
    else
      Ok(seq(n, k requires 0 <= k < n => OldPlaceholderGroup(k, n, w, layout, ax).value))
  }
}

=== FILE: upc.dfy ===
/** `upc_value`: an integer rendered as an eleven-digit, zero-padded decimal UPC string. */
module Upc {
  import opened Errors

  /** Number of digits of a UPC-A value without its check digit. */
  const UpcDigits: nat := 11

  /** The largest value `upc_value` accepts: eleven nines. */
  const MaxUpc: int := 99999999999

  function Pow10(k: nat): (r: nat)
    ensures r >= 1
  {
    if k == 0 then 1 else 10 * Pow10(k - 1)
  }

  predicate IsDigit(ch: char) {
    '0' <= ch <= '9'
  }

  predicate AllDigits(s: string) {
    forall i :: 0 <= i < |s| ==> IsDigit(s[i])
  }

  function DigitChar(d: nat): (ch: char)
    requires d < 10
    ensures IsDigit(ch)
    ensures (ch as int) - ('0' as int) == d
  {
    (('0' as int) + d) as char
  }

  /** The decimal value of a string of digits, most significant first. */
  function DigitsValue(s: string): (v: nat)
    requires AllDigits(s)
    ensures v < Pow10(|s|)
  {
    if |s| == 0 then 0
    else DigitsValue(s[..|s| - 1]) * 10 + ((s[|s| - 1] as int) - ('0' as int))
  }

  /** Python's `f"{n:d}"` for a non-negative `n`: no leading zeros, and "0" for zero. */
  function Decimal(n: nat): (s: string)
    ensures AllDigits(s)
    ensures 1 <= |s|
    ensures DigitsValue(s) == n
    ensures |s| == 1 || s[0] != '0'
  {
    if n < 10 then [DigitChar(n)]
    else
      var prefix := Decimal(n / 10);
      var s := prefix + [DigitChar(n % 10)];
      assert s[..|s| - 1] == prefix;
      s
  }

  /** A decimal rendering fits in `k` digits exactly when the number is below 10^k. */
  lemma {:induction false} DecimalLength(n: nat, k: nat)
    requires k >= 1
    ensures |Decimal(n)| <= k <==> n < Pow10(k)
  {
    if n < 10 {
      assert |Decimal(n)| == 1;
      assert Pow10(1) == 10;
      Pow10Monotone(1, k);
    } else {
      assert |Decimal(n)| == |Decimal(n / 10)| + 1;
      if k > 1 {
        DecimalLength(n / 10, k - 1);
      } else {
        assert Pow10(1) == 10;
      }
    }
  }

  lemma {:induction false} Pow10Monotone(i: nat, j: nat)
    requires i <= j
    ensures Pow10(i) <= Pow10(j)
  {
    if i < j {
      Pow10Monotone(i, j - 1);
    }
  }

  function Zeros(k: nat): (s: string)
    ensures |s| == k
    ensures AllDigits(s)
    ensures forall i :: 0 <= i < k ==> s[i] == '0'
  {
    if k == 0 then [] else Zeros(k - 1) + ['0']
  }

  /** Python's `f"{s:0>w}"`: left-pad with '0' up to width `w`, never truncate. */
  function PadLeftZeros(s: string, w: nat): (r: string)
    ensures |r| == if |s| < w then w else |s|
    ensures r[|r| - |s|..] == s
    ensures forall i :: 0 <= i < |r| - |s| ==> r[i] == '0'
  {
    if |s| < w then Zeros(w - |s|) + s else s
  }

  /** Leading zeros do not change the value of a digit string. */
  lemma {:induction false} ZerosPrefixValue(k: nat, s: string)
    requires AllDigits(s)
    ensures AllDigits(Zeros(k) + s)
    ensures DigitsValue(Zeros(k) + s) == DigitsValue(s)
  {
    var t := Zeros(k) + s;
    assert AllDigits(t) by {
      forall i | 0 <= i < |t| ensures IsDigit(t[i]) {
        if i < k { assert t[i] == Zeros(k)[i]; } else { assert t[i] == s[i - k]; }
      }
    }
    if |s| == 0 {
      assert t == Zeros(k);
      ZerosValue(k);
    } else {
      var s' := s[..|s| - 1];
      ZerosPrefixValue(k, s');
      assert t[..|t| - 1] == Zeros(k) + s';
    }
  }

  lemma {:induction false} ZerosValue(k: nat)
    ensures DigitsValue(Zeros(k)) == 0
  {
    if k > 0 {
      ZerosValue(k - 1);
      assert Zeros(k)[..k - 1] == Zeros(k - 1);
    }
  }

  /** `upc_value(n)` for an integer `n`. */
  function UpcValue(n: int): (r: Result<string>)
    ensures r.Ok? <==> 0 <= n <= MaxUpc
    ensures n < 0 ==> r == Err(NegativeValue)
    ensures n > MaxUpc ==> r == Err(TooManyDigits)
    ensures r.Ok? ==> |r.value| == UpcDigits && AllDigits(r.value)
  {
    if n < 0 then Err(NegativeValue)
    else if n > MaxUpc then Err(TooManyDigits)
    else
      DecimalLength(n, UpcDigits);
      Ok(PadLeftZeros(Decimal(n), UpcDigits))
  }

  /** The string `upc_value` returns denotes the integer it was given. */
  lemma UpcValueDenotes(n: int)
    requires 0 <= n <= MaxUpc
    ensures UpcValue(n).Ok?
    ensures DigitsValue(UpcValue(n).value) == n
  {
    var s := Decimal(n);
    DecimalLength(n, UpcDigits);
    if |s| < UpcDigits {
      ZerosPrefixValue(UpcDigits - |s|, s);
    }
  }

  /** Two digit strings of the same length with the same value are the same string. */
  lemma {:induction false} DigitsValueInjective(a: string, b: string)
    requires AllDigits(a) && AllDigits(b)
    requires |a| == |b|
    requires DigitsValue(a) == DigitsValue(b)
    ensures a == b
  {
    if |a| > 0 {
      var n := |a| - 1;
      var da := (a[n] as int) - ('0' as int);
      var db := (b[n] as int) - ('0' as int);
      assert DigitsValue(a) == DigitsValue(a[..n]) * 10 + da;
      assert DigitsValue(b) == DigitsValue(b[..n]) * 10 + db;
      LastDigitUnique(DigitsValue(a[..n]), da, DigitsValue(b[..n]), db);
      DigitsValueInjective(a[..n], b[..n]);
      assert a == a[..n] + [a[n]];
      assert b == b[..n] + [b[n]];
    }
  }

  lemma LastDigitUnique(x: nat, p: int, y: nat, q: int)
    requires 0 <= p < 10 && 0 <= q < 10
    requires x * 10 + p == y * 10 + q
    ensures x == y && p == q
  {
  }

  /** Every eleven-digit string is the UPC of its own value: `upc_value` is onto
      the eleven-digit strings, so the decode/encode round trip closes too. */
  lemma UpcValueOfDigits(s: string)
    requires |s| == UpcDigits && AllDigits(s)
    ensures UpcValue(DigitsValue(s)) == Ok(s)
  {
    var n := DigitsValue(s);
    UpcValueDenotes(n);
    DigitsValueInjective(UpcValue(n).value, s);
  }
}
